=== FILE: README.md ===
# Flappy Bird web: session coordinator and game rules in Dafny

This project models the logic of a browser Flappy Bird game with a small
multiplayer server. Every part is written as pure functions over immutable
data, and properties of those functions are proved.

- **The session coordinator** (`server/index.ts`) keeps one map from socket id
  to player and a `gameStarted` flag. It handles five socket events:
  `joinGame`, `playerReady`, `updateScore`, `gameOver` and `disconnect`.
  Each handler here maps a session and an event to a new session plus the
  broadcasts it sends, in order. The map is an insertion-ordered sequence,
  because a JavaScript `Map` keeps a key where it was first set.
- **The multiplayer client** (`src/app/game/game.component.ts`) runs the
  following, and each handler returns the requests it sends to the server:
  - a bird that falls under capped gravity;
  - pipes that spawn on a timer, move left and leave the screen;
  - box-overlap collisions, checked in a fixed order: ground, then ceiling,
    then pipes;
  - once-only scoring;
  - the start countdown;
  - the reactions to the server's `gameStart`, `gameEnd` and `players`
    broadcasts;
  - joining and readiness;
  - the end-of-session checks and the restart countdown;
  - the results table, sorted by score.
- **The single-player game** (`src/app/game/game.ts`) runs:
  - a bird that does not move until its first flap;
  - a ground hit that ends the game at any time;
  - pipe hits, including a "cap" margin around the rims of the gap;
  - scoring, culling and spacing-based spawning;
  - the pause, restart and high-score rules;
  - gap placement within a band the bird can reach.
- **The two birds**:
  - `src/app/bird/bird.component.ts` has capped gravity and never gates
    itself.
  - `src/app/bird/bird.ts` has uncapped gravity, is gated by the pause and
    by its first flap, and has a wing that always swings.

Modules:

| module | file |
|---|---|
| `Coordinator` | `coordinator.dfy` |
| `Arena` | `arena.dfy` |
| `ArenaPipes` | `arena_pipes.dfy` |
| `Boxes` | `boxes.dfy` |
| `Standings` | `standings.dfy` |
| `Solo` | `solo.dfy` |
| `FlapBird` | `flap_bird.dfy` |
| `WingBird` | `wing_bird.dfy` |
| `Wrappers` (`Option`, `Result`) | `wrappers.dfy` |
| `Seqs` (subsequence) | `seqs.dfy` |
| `Reals` (`Math.min`, `Math.max`, `Math.abs`) | `reals.dfy` |

Coordinates and velocities are `real`, so the arithmetic is exact. The
following become parameters:

- `Math.random()` is a `rand` in [0, 1).
- `performance.now()` is `now`.
- The window size is `canvasWidth`/`canvasHeight` or a `Viewport`.
- The stored high score is an `Option<int>` read at start-up. The value
  `endGame` writes is returned next to the new state.

Timers become explicit tick inputs: one countdown second, one restart second,
one animation frame.

Where the code and its design intent disagree, the model follows the code:

- The server's `gameStarted` flag is written but never read.
  - A repeated `playerReady` while everyone is ready broadcasts `gameStart`
    again (`Coordinator.RepeatedReadyRestarts`).
  - The flag stays set when an unready player joins after a start
    (`Coordinator.StartedFlagOutlivesReadiness`).
- The multiplayer frame still scores after a collision. The server can
  therefore hear `updateScore` after `gameOver` in the same frame
  (`Arena.ScoreReportedAfterGameOver`).
- The single-player frame reads the last pipe of a list that can be empty.
  This is modelled as the error `Solo.NoPipeLeft`. It cannot occur on a
  window wider than 222 units (`Solo.UpdateKeepsPipes`), but it does occur
  on a narrower one (`Solo.NarrowWindowFaults`).
- The single-player start-up places the first gap with its own formula, not
  with `generatePipeGap`, and the model does the same (`Solo.Init`). Its
  consequence is the first entry under Findings.

## Model

| member | source | states |
|---|---|---|
| Coordinator.Get | server/index.ts:45 | A lookup that succeeds returns an entry of the map stored under the asked id. |
| Coordinator.GetFailsIffAbsent | server/index.ts:45-46 | A lookup fails exactly when no entry carries the id, so the handlers' `if (player)` guards test membership. |
| Coordinator.Set | server/index.ts:33-39 | After storing, the id maps to the new entry and every other id maps to what it did before. |
| Coordinator.SetKeepsPosition | server/index.ts:33 | Storing keeps an existing key where it stands in iteration order and appends a new key at the end, as JS `Map.set` does. |
| Coordinator.SetKeepsIdsUnique | server/index.ts:25 | Storing keeps one entry per socket id. |
| Coordinator.Remove | server/index.ts:88 | Deleting leaves the id unmapped, keeps every other lookup, keeps the remaining entries in order, and changes nothing when the id is absent. |
| Coordinator.RemoveDropsOneEntry | server/index.ts:88 | Deleting a present id removes exactly one entry and keeps ids unique. |
| Coordinator.JoinGame | server/index.ts:31-41 | The socket's entry becomes a fresh player with the sent name, score 0, not ready and not finished, replacing any earlier one. Other players are untouched, the order of ids is kept, and the new list is broadcast. |
| Coordinator.PlayerReady | server/index.ts:43-47 | An unknown socket changes nothing and sends nothing. For a known socket only its ready flag is set; every other player and the order of ids are kept. |
| Coordinator.ReadyBroadcasts | server/index.ts:48-56 | A known sender's new list is broadcast first. `gameStart` follows, once, exactly when every player is then ready, and it sets the flag; nothing else is sent, so at most two messages go out. |
| Coordinator.UpdateScore | server/index.ts:60-67 | The sender's score is overwritten with the reported value (not a maximum), and nothing else changes. An unknown socket is a no-op. |
| Coordinator.GameOver | server/index.ts:69-73 | An unknown socket changes nothing and sends nothing. For a known socket only its finished flag is set; every other player and the order of ids are kept. |
| Coordinator.FinishBroadcasts | server/index.ts:74-82 | A known sender's new list is broadcast first. `gameEnd` with the full list follows, once, exactly when every player is then finished, and it clears the flag; nothing else is sent, so at most two messages go out. |
| Coordinator.Disconnect | server/index.ts:86-95 | The entry is removed, the rest keep their order, the list is always broadcast, and the flag is cleared when the map becomes empty. |
| Coordinator.HandleKeepsIdsUnique | server/index.ts:25 | No handler ever creates two entries for one socket id. |
| Coordinator.RunKeepsIdsUnique | server/index.ts:28-96 | Over any sequence of events the map holds at most one entry per socket. |
| Coordinator.ChangesAreBroadcastFirst | server/index.ts:47-55 | Whenever a handler changes the player list, its first broadcast is the new list, ahead of any `gameStart` or `gameEnd`. |
| Coordinator.SetSameIsIdentity | server/index.ts:47 | Storing an entry that is already stored leaves the map as it is. |
| Coordinator.RepeatedReadyRestarts | server/index.ts:51-55 | A `playerReady` from an already-ready player, while everyone is ready, rebroadcasts the unchanged list and sends `gameStart` again, because nothing reads `gameStarted`. |
| Coordinator.StartedFlagOutlivesReadiness | server/index.ts:26 | After a start, a newcomer joins unready while `gameStarted` stays true. |
| Coordinator.FoldAppend | server/index.ts:28-96 | Handling two event traces one after the other equals handling their concatenation. |
| Coordinator.ScenarioReadies | server/index.ts:43-58 | When three joined players each send `playerReady`, exactly one `gameStart` is broadcast. |
| Coordinator.ThreeReadyPlayersStartOnce | server/index.ts:31-58 | Three joins followed by three readies broadcast `gameStart` exactly once. |
| FlapBird.Jump | src/app/bird/bird.component.ts:22-24 | A flap sets the velocity to the fixed upward impulse of -2.5, whatever it was before, and moves nothing. |
| FlapBird.Update | src/app/bird/bird.component.ts:26-30 | The velocity becomes old velocity plus gravity, capped at 10. The height moves by the new, capped velocity, and x and size are unchanged. |
| FlapBird.Reset | src/app/bird/bird.component.ts:55-59 | The bird is back at (250, 300) and at rest, with its size kept. |
| FlapBird.JumpIdempotent | src/app/bird/bird.component.ts:22-24 | Two flaps in a row are the same as one. |
| FlapBird.ResetIdempotent | src/app/bird/bird.component.ts:55-59 | Resetting twice is resetting once. A default-sized bird resets to the initial bird. |
| FlapBird.VelocityAfterFrames | src/app/bird/bird.component.ts:27-28 | From a velocity at or below the cap, `n` frames give `min(v + n * 0.08, 10)` and never change x. |
| FlapBird.TerminalVelocityFromRest | src/app/bird/bird.component.ts:18-28 | From rest, the bird is at terminal velocity exactly from the 125th frame on. |
| WingBird.Update | src/app/bird/bird.ts:33-45 | The wing always advances by one step and turns back exactly when past the limit. Height and velocity change only when not paused and started, and then by uncapped gravity. Nothing else changes. |
| WingBird.PerformJump | src/app/bird/bird.ts:47-53 | The velocity becomes the jump force and the bird is started. `gameStart` is emitted exactly when it was not started before. |
| WingBird.Reset | src/app/bird/bird.ts:55-60 | The bird is at rest, not started, with the wing level and swinging down. Position, size, physics and the pause flag are kept. |
| WingBird.UpdateKeepsWingInv | src/app/bird/bird.ts:35-38 | The wing direction stays ±1, and the angle never overshoots the limit by more than one step. |
| WingBird.WingStaysInSwing | src/app/bird/bird.ts:35-38 | After a reset, the wing stays within its swing for any number of frames. |
| WingBird.SecondJumpIsSilent | src/app/bird/bird.ts:47-53 | A second flap emits nothing and leaves the same bird as the first. |
| WingBird.ResetFreezesHeight | src/app/bird/bird.ts:41-44 | After a reset, no number of frames moves the bird or gives it speed until it flaps. |
| WingBird.FallIsUncapped | src/app/bird/bird.ts:41-44 | A started, unpaused bird gains `n * gravity` of velocity in `n` frames, with no cap. |
| Boxes.OverlapsSymmetric | src/app/game/game.component.ts:337-343 | The overlap test does not depend on the order of its arguments. |
| Boxes.TouchingEdgesDoNotOverlap | src/app/game/game.component.ts:337-343 | Boxes that only share an edge do not collide. |
| Boxes.OverlapsIffCommonPoint | src/app/game/game.component.ts:337-343 | For boxes of positive size, the test holds exactly when some point lies strictly inside both. |
| ArenaPipes.SpawnPipe | src/app/game/game.component.ts:284-293 | A new pipe sits at the canvas edge, not passed, with standard width and gap, and a top height in [50, 300). |
| ArenaPipes.SpawnCoversBand | src/app/game/game.component.ts:285 | Every top height in [50, 300) is produced by some random draw. |
| ArenaPipes.Shift | src/app/game/game.component.ts:274-279 | A pipe moves left by 2. A pipe still on screen is otherwise unchanged. |
| ArenaPipes.MoveAll | src/app/game/game.component.ts:274-279 | Every pipe takes one move, and the list keeps its length and order. |
| ArenaPipes.Cull | src/app/game/game.component.ts:281 | The kept pipes are exactly the on-screen ones, in their original order. |
| ArenaPipes.CullKeepsLast | src/app/game/game.component.ts:281 | A last pipe that is still on screen stays last after the filter, so a new pipe is never dropped or reordered. |
| ArenaPipes.UpdatePipes | src/app/game/game.component.ts:267-282 | A spawn happens, and restarts the timer, exactly when more than 2500 ms have passed. Every kept pipe is on screen. The result is an ordered subsequence of the moved list, every old pipe still on screen after its move is kept, and the list grows by at most one. When a spawn is due and the new pipe is still on screen after its move, it is the last pipe of the list; when no spawn is due, the list does not grow. |
| ArenaPipes.MoveMarkNeverSurvives | src/app/game/game.component.ts:276-281 | Every kept pipe is an old or spawned pipe moved left and otherwise unchanged: the `passed` flag the move sets never survives the filter. |
| ArenaPipes.UpdatePipesKeepsOrder | src/app/game/game.component.ts:267-292 | With a fixed canvas width, pipes stay in left-to-right order and left of the spawn edge. |
| ArenaPipes.ScorePipes | src/app/game/game.component.ts:345-353 | Each pipe behind the bird is flagged as passed. The score grows by exactly the number of newly passed pipes, and each new score is reported in order. |
| ArenaPipes.ScoringIsOnce | src/app/game/game.component.ts:347 | A second scoring pass adds nothing and reports nothing: each pipe scores once. |
| Arena.FirstPipeHit | src/app/game/game.component.ts:319-334 | Returns the first pipe, in list order, whose top or bottom part the bird overlaps. Returns none exactly when no pipe is hit. |
| Arena.CheckCollisions | src/app/game/game.component.ts:295-335 | The ground is checked first, then the ceiling, then the pipes in order. There is no hit exactly when the bird is above the ground, below the sky and clear of every pipe. |
| Arena.InsideGapIsSafe | src/app/game/game.component.ts:319-330 | A bird strictly inside a pipe's gap never hits that pipe. |
| Arena.RimContactIsSafe | src/app/game/game.component.ts:337-343 | Touching the gap's upper rim, or the front of the pipe, is not a hit. |
| Arena.GameOver | src/app/game/game.component.ts:412-418 | The run stops and is over. The score is sent, then `gameOver`, and nothing else changes. |
| Arena.Collide | src/app/game/game.component.ts:295-335 | No hit changes nothing. Any hit ends the game once. |
| Arena.ScoreFrame | src/app/game/game.component.ts:345-353 | Each pipe is flagged as passed exactly when it already was or lies wholly behind the bird. The score grows by the number of newly passed pipes, every point is reported as `updateScore(score + k + 1)`, and only pipes and score change. |
| Arena.Move | src/app/game/game.component.ts:261-262 | The bird takes one physics step and the pipes one move. The spawn clock moves to `now` exactly when a spawn is due and is otherwise kept. Nothing else changes. |
| Arena.Update | src/app/game/game.component.ts:255-265 | The frame ends the game exactly when the moved bird collides. The run flag is cleared when the frame ends the game and is otherwise untouched. The bird takes one physics step. The pipes are the moved pipes, each flagged once wholly behind the bird, and the score grows by exactly the number of newly passed ones. Nothing else changes. |
| Arena.FrameRequests | src/app/game/game.component.ts:255-265 | The frame sends `gameOver` exactly when it ends the game, right after the score from before the frame. Every other request is a score report. |
| Arena.FrameOutput | src/app/game/game.component.ts:255-265 | Everything a frame sends, in order: the score from before the frame and `gameOver` when the frame ends the game, then one `updateScore` for each point scored, carrying score + 1 up to the new score. |
| Arena.ScoreReportedAfterGameOver | src/app/game/game.component.ts:261-264 | A bird that passes one pipe as it hits the next sends `Score(4)`, `gameOver`, then `Score(5)`. |
| Arena.GameLoop | src/app/game/game.component.ts:237-253 | The simulation advances only while running, not over and not showing game over. Otherwise a frame changes nothing. |
| Arena.OverIsFrozen | src/app/game/game.component.ts:248 | Once the game is over, any number of frames changes nothing and sends nothing. |
| Arena.ResetGame | src/app/game/game.component.ts:226-235 | Score 0, no pipes, not over, spawn clock at 0, and the bird reset. Nothing else changes. |
| Arena.StartCountdown | src/app/game/game.component.ts:213-224 | The countdown starts at 3 and holds the run. Nothing else changes. |
| Arena.CountdownTick | src/app/game/game.component.ts:217-223 | Each second lowers the value by one. The run starts, and the timer stops, exactly when the value reaches 0 or below. Nothing but the value, the timer and the run flag changes. |
| Arena.CountdownStartsAfterThree | src/app/game/game.component.ts:213-224 | After `n` seconds the run has started exactly when `n >= 3`. The value is `3 - n` until then, and the timer is active exactly while `n < 3`. |
| Arena.OnGameStart | src/app/game/game.component.ts:164-180 | A `gameStart` broadcast starts a fresh run: started, not over, not waiting, readiness cleared, score 0, no pipes, spawn clock at 0 and the bird reset. Nothing else changes. |
| Arena.InitializeGame | src/app/game/game.component.ts:192-211 | Without a canvas nothing changes. Otherwise the frame resets score, pipes, spawn clock, game-over flag and bird, and starts the countdown with the run held. Nothing else changes. |
| Arena.EndGame | src/app/game/game.component.ts:420-437 | The run is abandoned with score 0, no pipes and the bird reset. The countdown stops, the game-over flag is left as it was, and nothing else changes. |
| Arena.OnGameEnd | src/app/game/game.component.ts:182-188 | A `gameEnd` broadcast ends the run and shows the final list it carries. |
| Arena.Trigger | src/app/game/game.component.ts:119-127 | A flap request flaps exactly when a run is on and not over. Otherwise it is ignored. |
| Arena.OnKeyDown | src/app/game/game.component.ts:98-106 | The space bar is a flap request, honoured exactly as `triggerFlap` decides. Every other key is ignored. |
| Arena.OnMouseUp | src/app/game/game.component.ts:109-116 | The left button is a flap request, honoured exactly as `triggerFlap` decides. Every other button is ignored. |
| Arena.BlankIffAllSpace | src/app/game/game.component.ts:450 | A name trims to nothing exactly when every character is white space. |
| Arena.JoinGame | src/app/game/game.component.ts:449-457 | A blank name does nothing. Otherwise `joinGame` is sent with the untrimmed name, and the client waits, not over, not started and with no countdown. Nothing else changes. |
| Arena.SetReady | src/app/game/game.component.ts:459-462 | The local ready flag is set and `playerReady` is always sent. |
| Arena.ArmRestart | src/app/game/game.component.ts:526-531 | The check's answer is returned unchanged. The restart countdown starts only when the check holds and none is showing; otherwise nothing changes. |
| Arena.AreAllPlayersFinished | src/app/game/game.component.ts:525-532 | True exactly when someone is listed and every listed player is finished. When true and no restart countdown is showing, it shows one and starts it at 3. Otherwise nothing changes. |
| Arena.StartRestartCountdown | src/app/game/game.component.ts:504-506 | The restart countdown is set to 3 and its timer runs. Nothing else changes. |
| Arena.AreAllPlayersGameOver | src/app/game/game.component.ts:494-501 | True exactly when every listed player has a positive score, which is vacuously true on an empty list. When true and no restart countdown is showing, it shows one and starts it at 3. Otherwise nothing changes. |
| Arena.GameOverCheckMisreadsScores | src/app/game/game.component.ts:494-501 | The score test disagrees with the finished test both ways: a flying player with points passes it, a crashed player with none fails it, and an empty list passes it. |
| Arena.RestartTick | src/app/game/game.component.ts:504-518 | An inactive timer does nothing. Each second lowers the restart countdown and changes nothing else. The last second is the rejoin. |
| Arena.Rejoin | src/app/game/game.component.ts:507-516 | The timer stops and the countdown is hidden. The client leaves game over, is not started, waits again and clears readiness. `joinGame` is then sent exactly when the name is not blank. Bird, pipes, score, players and every other field stay. |
| Arena.RunInputsKeepsConsistent | src/app/game/game.component.ts:97-532 | Over any sequence of inputs and broadcasts, a game that is over is never running, and neither runs nor is over during the countdown. |
| Standings.Insert | src/app/game/game.component.ts:521-523 | Inserting adds exactly the one player and keeps every other. |
| Standings.InsertKeepsSorted | src/app/game/game.component.ts:521-523 | Inserting into a list sorted by descending score keeps it sorted. |
| Standings.GetSortedPlayers | src/app/game/game.component.ts:521-523 | The result is sorted by descending score and is a permutation of the players. |
| Standings.SortIsStable | src/app/game/game.component.ts:521-523 | Players with equal scores keep their relative order, as the stable `Array.prototype.sort` does. |
| Solo.MaxAchievableHeight | src/app/game/game.ts:170-175 | The reachable height is non-negative and equals 80% of `v² / 2g`. |
| Solo.SoloFlapHeight | src/app/game/game.ts:136-137 | With the game's jump force and gravity, a flap reaches 250/7 units. |
| Solo.GeneratePipeGap | src/app/game/game.ts:177-190 | The gap top is drawn from 100 up to, but not including, the lower of the grass limit and mid-screen plus half a flap. When that band is inverted, the result lies between its ends. |
| Solo.GapClearsGround | src/app/game/game.ts:177-190 | On a window taller than 420 units the band is the right way up, and every gap ends more than 50 units above the grass. |
| Solo.InitialGapY | src/app/game/game.ts:141-145 | The first pipe's gap top lies in [100, 100 + the grass limit), the same half-open band the Findings row uses. |
| Solo.InitialGapSinksIntoGround | src/app/game/game.ts:143 | On an 800-unit window, a draw of 0.99 gives a new game a first gap top of 575.2: below the band, and with the gap reaching into the ground. |
| Solo.AnyPipeHit | src/app/game/game.ts:210-239 | Some pipe stops the bird exactly when one of them collides. |
| Solo.ClearPassage | src/app/game/game.ts:212-237 | A bird inside a gap and at least 5 units from both rims passes the pipe. |
| Solo.CapHitInsideGap | src/app/game/game.ts:230-237 | A bird inside the gap but within 5 units of its upper rim still hits. |
| Solo.MoveAndScore | src/app/game/game.ts:249-256 | Every pipe moves left by 2. A pipe scores exactly when, after its move, it is wholly behind the bird and has not scored, and the score grows by the number of newly scored pipes. |
| Solo.ScoredPipesStayScored | src/app/game/game.ts:252 | Pipes that have all scored add no points. |
| Solo.Cull | src/app/game/game.ts:259 | The kept pipes are exactly those right of `-PIPE_WIDTH`. An on-screen last pipe stays last. |
| Solo.CullKeepsOrder | src/app/game/game.ts:259 | The kept pipes are a subsequence of the list, in their original order. |
| Solo.SpawnIfDue | src/app/game/game.ts:260-266 | A pipe is added exactly when the last pipe is more than a spacing from the right edge. It is unscored, sits at the edge and carries the drawn gap. The old list is kept as a prefix. Afterwards the last pipe is within a spacing of the edge, and spacing is kept. |
| Solo.Advance | src/app/game/game.ts:247-266 | The pipe stage faults exactly when no pipe survives its move. Otherwise the new list is the moved, scored and culled list with the spawn test applied, the score grows by the newly scored pipes, every pipe is on screen or at the right edge, and nothing but pipes and score changes. |
| Solo.Update | src/app/game/game.ts:192-268 | A ground hit ends the game even before the first flap. Otherwise a pipe hit ends it while in play. In play with no hit, the frame is the pipe stage, faulting exactly when it does. Out of play, only the bird moves. The score never drops. |
| Solo.GroundEndsUnstartedGame | src/app/game/game.ts:198-206 | A bird resting on the ground before its first flap ends the game. |
| Solo.EndGame | src/app/game/game.ts:492-510 | The game is over and paused. The high score becomes the larger of the two and is stored exactly when beaten. |
| Solo.HighScoreRoundTrip | src/app/game/game.ts:128-129 | After `endGame`, whatever storage then holds reads back as the high score in play. |
| Solo.Init | src/app/game/game.ts:122-148 | Start-up gives one unscored pipe at the right edge whose gap comes from the start-up formula, not from `generatePipeGap`. The game is not paused, not started, with score 0 and the stored high score. The bird is a quarter across, at mid-height, 58 × 45, at rest, not started and not paused, with wing angle 0 and wing direction 1; its gravity is 0.07 and its flap force -2.5. |
| Solo.InitEstablishesInvariants | src/app/game/game.ts:122-148 | A new game has consistent flags and satisfies the pipe invariant that rules out the empty-list fault. |
| Solo.ResetGame | src/app/game/game.ts:512-527 | A restart clears game over, pause, started and score, and leaves one unscored pipe at the right edge whose gap comes from `generatePipeGap`. The bird is reset at mid-height and the high score is kept. |
| Solo.GameLoop | src/app/game/game.ts:162-168 | While paused a frame changes nothing. Otherwise it is one update. |
| Solo.OnKeyDown | src/app/game/game.ts:84-95 | Escape restarts a game that is over and otherwise toggles the pause. Other keys do nothing. |
| Solo.PauseToggleTwice | src/app/game/game.ts:91-93 | Pressing Escape twice while the game is not over restores the state. |
| Solo.OnMouseUp | src/app/game/game.ts:98-102 | The left button flaps in any state. The game counts as started once the bird's first flap has emitted its start signal. Pipes, score and the pause, over and high-score fields stay. Other buttons do nothing. |
| Solo.OnClick | src/app/game/game.ts:530-548 | A click on the restart button while paused restarts. Any other click does nothing. |
| Solo.ControlsKeepConsistent | src/app/game/game.ts:84-102 | Every input, and every frame that does not fault, keeps a game that is over paused and keeps "started" in step with the bird. |
| Solo.OverIsFrozen | src/app/game/game.ts:162-166 | A frame leaves a game that is over exactly as it is and stores nothing. |
| Solo.AdvanceKeepsPipes | src/app/game/game.ts:259-266 | On a fixed window wider than 222 units, the pipe stage never faults. The list stays non-empty, spaced, and within a spacing of the right edge. |
| Solo.UpdateKeepsPipes | src/app/game/game.ts:192-268 | On a fixed window wider than 222 units, no frame faults and the pipe invariant is kept. |
| Solo.NarrowWindowFaults | src/app/game/game.ts:259-260 | On a 200-unit window, the only pipe leaves the screen before a spawn and the last-pipe read faults. |

## Left out

- **Drawing**: all canvas drawing, including the collision effect, the
  ground's scrolling offset and the pipe component. None of it changes game
  state.
- **Timer handles and frame scheduling**: `requestAnimationFrame`,
  `setInterval` and `clearInterval`. Each timer firing is one explicit tick
  input.
  - A second `startCountdown` would leak the earlier interval, which would
    keep ticking. This is not modelled: the model holds one countdown.
- **Socket and service plumbing**: socket.io transport and the client
  service's `BehaviorSubject` replay of initial values. The client's requests
  are the server's own event type.
  - The `players` broadcast only stores the list.
  - The `Array.isArray` check on the `gameEnd` payload is not modelled,
    because the payload is always a list.
- **Storage and parsing**: `localStorage` string encoding and
  `parseInt`. Storage holds the integer itself.
- Coordinator.UpdateScore: the server stores whatever JavaScript number
  `data.score` carries (a fraction, a negative value or `NaN` alike). The
  model takes an `int`, since the client only ever sends its integer score.
- **Floating point**: `Math.PI / 6` is a decimal constant, and no claim is
  made about rounding.
- **Null guards**: the `birdComponent` null checks of the multiplayer
  client. The bird is always present. The canvas guard of `initializeGame`
  is modelled, as the `canvasReady` input of `Arena.InitializeGame`.
- **Unused members**:
  - `GRAVITY`, `FLAP_FORCE` and `highScore` of the multiplayer client are
    never used.
  - `startGame`, `startGameMovement`, `restartForPlayer`, `isCurrentPlayer`
    and `isPlayerReady` are not called by the game logic.
- **Window size**: the window size is a parameter of every step.
  - The pipe invariants assume it does not change between frames.
  - A resize can break spacing and order, and the no-fault result does not
    cover it.
- **Single-player mouse and click order**: a left click fires `mouseup`
  (a flap) before `click` (the restart button). The two handlers are modelled
  separately, not as one combined event.
- **Socket identity**: connection ids are strings chosen by the caller.
- **Logging**: server logging and the HTTP listener are not modelled.
- `server/dist/index.js` is the compiled copy of the server and is not part
  of this model.

## Findings

| source | as written | input that shows it | evidently intended | confidence | as-written member | corrected member |
|---|---|---|---|---|---|---|
| src/app/game/game.ts:143 | The first pipe's gap top is `rand * (H - 320) + 100`. This shifts the band by 100 without shrinking it, so its range is [100, H - 220). | A window 800 high with a draw of 0.99 gives a gap top of 575.2. The band's top is at most 480, and the gap's bottom at 725.2 is 25.2 units into the ground at 700. | Place the first gap with `generatePipeGap`, in [100, min(H - 320, H/2 + flap/2)), as every later pipe is; `Solo.ResetGame` and `Solo.SpawnIfDue` in `Solo.Advance` use that band. | not executed | Solo.InitialGapSinksIntoGround | Solo.GapClearsGround |
| src/app/game/game.component.ts:494-501 | `areAllPlayersGameOver` tests `score > 0` for every player, which is vacuously true for no players. | A player still flying with 3 points passes it. A crashed player with 0 points fails it, so a view that relies on it would never start the restart countdown for that player. An empty list passes it. Which check the view calls is not part of this model. | The finished test of `areAllPlayersFinished`: a non-empty list in which every player is finished. | not executed | Arena.GameOverCheckMisreadsScores | Arena.AreAllPlayersFinished |

=== FILE: arena.dfy ===
/**
 * The multiplayer client's game: the bird and pipe simulation run frame by
 * frame, its collision and scoring rules, the start countdown, and the
 * reactions to the server's broadcasts. Every handler returns the new state
 * and the requests it sends to the server, in sending order; those requests
 * are the server's own socket events.
 */
module Arena {
  import opened Wrappers
  import Boxes
  import FlapBird
  import ArenaPipes
  import Coordinator

  const GroundHeight: real := 100.0
  const SkyHeight: real := 50.0
  const CountdownStart: int := 3

  type Player = Coordinator.Player
  type Pipe = ArenaPipes.Pipe

  /** What the client sends to the server. */
  type Request = Coordinator.Event

  datatype Game = Game(
    bird: FlapBird.Bird,
    pipes: seq<Pipe>,
    score: int,
    lastPipeSpawn: real,
    isGameStarted: bool,
    isGameOver: bool,
    showGameOver: bool,
    showCountdown: bool,
    countdownValue: int,
    countdownActive: bool,
    isGameRunning: bool,
    players: seq<Player>,
    localPlayerName: string,
    isWaitingForPlayers: bool,
    isReady: bool,
    restartCountdown: int,
    restartActive: bool,
    showRestartCountdown: bool)

  /** The component as constructed, with its bird child in place. */
  const Initial: Game := Game(FlapBird.Initial, [], 0, 0.0, false, false, false, false, 3, false, false,
                              [], "", false, false, 3, false, false)

  datatype Step = Step(game: Game, out: seq<Request>)

  // ---------------------------------------------------------------------------
  // Collisions

  datatype Hit = NoHit | GroundHit | CeilingHit | PipeHit(index: nat)

  function BirdBox(b: FlapBird.Bird): Boxes.Box {
    Boxes.Box(b.x, b.y, b.width, b.height)
  }

  /** The upper part of a pipe, from the top of the canvas down to the gap. */
  function TopPart(p: Pipe): Boxes.Box {
    Boxes.Box(p.x, 0.0, p.width, p.topHeight)
  }

  /** The lower part of a pipe, from below the gap down to the bottom of the canvas. */
  function BottomPart(p: Pipe, canvasHeight: real): Boxes.Box {
    Boxes.Box(p.x, p.topHeight + p.gap, p.width, canvasHeight - (p.topHeight + p.gap))
  }

  predicate HitsPipe(b: FlapBird.Bird, p: Pipe, canvasHeight: real) {
    Boxes.Overlaps(BirdBox(b), TopPart(p)) || Boxes.Overlaps(BirdBox(b), BottomPart(p, canvasHeight))
  }

  /** The first pipe, in list order, that the bird overlaps. */
  function FirstPipeHit(b: FlapBird.Bird, ps: seq<Pipe>, canvasHeight: real): (r: Option<nat>)
    ensures r.Some? ==> r.value < |ps| && HitsPipe(b, ps[r.value], canvasHeight)
    ensures r.Some? ==> forall j :: 0 <= j < r.value ==> !HitsPipe(b, ps[j], canvasHeight)
    ensures r.None? <==> forall j :: 0 <= j < |ps| ==> !HitsPipe(b, ps[j], canvasHeight)
  {
    if |ps| == 0 then None
    else if HitsPipe(b, ps[0], canvasHeight) then Some(0)
    else match FirstPipeHit(b, ps[1..], canvasHeight)
      case None => None
      case Some(i) => Some(i + 1)
  }

  /** `checkCollisions`: the ground first, then the ceiling, then the pipes in order. */
  function CheckCollisions(b: FlapBird.Bird, ps: seq<Pipe>, canvasHeight: real): (r: Hit)
    ensures r == GroundHit <==> b.y + b.height >= canvasHeight - GroundHeight
    ensures r == CeilingHit <==> b.y + b.height < canvasHeight - GroundHeight && b.y <= SkyHeight
    ensures r.PipeHit? ==> r.index < |ps| && HitsPipe(b, ps[r.index], canvasHeight)
    ensures r.PipeHit? ==> forall j :: 0 <= j < r.index ==> !HitsPipe(b, ps[j], canvasHeight)
    ensures r == NoHit <==>
      && b.y + b.height < canvasHeight - GroundHeight
      && b.y > SkyHeight
      && forall j :: 0 <= j < |ps| ==> !HitsPipe(b, ps[j], canvasHeight)
  {
    if b.y + b.height >= canvasHeight - GroundHeight then GroundHit
    else if b.y <= SkyHeight then CeilingHit
    else match FirstPipeHit(b, ps, canvasHeight)
      case None => NoHit
      case Some(i) => PipeHit(i)
  }

  // ---------------------------------------------------------------------------
  // The frame

  /** One `updateScore(score)` request per reported score. */
  function ScoreRequests(ks: seq<int>): (r: seq<Request>)
    ensures |r| == |ks|
    ensures forall i :: 0 <= i < |ks| ==> r[i] == Coordinator.Score(ks[i])
  {
    if |ks| == 0 then [] else [Coordinator.Score(ks[0])] + ScoreRequests(ks[1..])
  }

  /** `gameOver`: stop the run and tell the server the score, then that this player is done. */
  function GameOver(g: Game): (r: Step)
    ensures r.game.isGameOver && !r.game.isGameRunning
    ensures r.game.(isGameOver := g.isGameOver, isGameRunning := g.isGameRunning) == g
    ensures r.out == [Coordinator.Score(g.score), Coordinator.Finished]
  {
    Step(g.(isGameOver := true, isGameRunning := false), [Coordinator.Score(g.score), Coordinator.Finished])
  }

  /** The collision step of a frame: a hit ends the game, no hit changes nothing. */
  function Collide(g: Game, canvasHeight: real): (r: Step)
    requires !g.isGameOver
    ensures CheckCollisions(g.bird, g.pipes, canvasHeight) == NoHit ==> r == Step(g, [])
    ensures CheckCollisions(g.bird, g.pipes, canvasHeight) != NoHit ==> r == GameOver(g)
  {
    if CheckCollisions(g.bird, g.pipes, canvasHeight) == NoHit then Step(g, []) else GameOver(g)
  }

  /** The scoring step of a frame: flags and points for the pipes behind the bird, each point reported. */
  function ScoreFrame(g: Game): (r: Step)
    ensures r.game.score == g.score + ArenaPipes.NewlyPassed(g.pipes, g.bird.x)
    ensures |r.out| == r.game.score - g.score
    ensures forall k :: 0 <= k < |r.out| ==> r.out[k] == Coordinator.Score(g.score + k + 1)
    ensures r.game == g.(pipes := r.game.pipes, score := r.game.score)
    ensures |r.game.pipes| == |g.pipes|
    ensures forall i :: 0 <= i < |g.pipes| ==>
      r.game.pipes[i] == g.pipes[i].(passed := g.pipes[i].passed || g.pipes[i].x + g.pipes[i].width < g.bird.x)
  {
    var scored := ArenaPipes.ScorePipes(g.pipes, g.bird.x, g.score);
    Step(g.(pipes := scored.pipes, score := scored.score), ScoreRequests(scored.reports))
  }

  /** The move step of a frame: the bird falls and the pipes move, spawn and leave. */
  function Move(g: Game, now: real, rand: real, canvasWidth: real): (r: Game)
    requires 0.0 <= rand < 1.0
    ensures r.bird == FlapBird.Update(g.bird)
    ensures r.pipes == ArenaPipes.UpdatePipes(g.pipes, g.lastPipeSpawn, now, canvasWidth, rand).pipes
    ensures r.lastPipeSpawn == ArenaPipes.UpdatePipes(g.pipes, g.lastPipeSpawn, now, canvasWidth, rand).lastSpawn
    ensures r == g.(bird := r.bird, pipes := r.pipes, lastPipeSpawn := r.lastPipeSpawn)
  {
    var moved := ArenaPipes.UpdatePipes(g.pipes, g.lastPipeSpawn, now, canvasWidth, rand);
    g.(bird := FlapBird.Update(g.bird), pipes := moved.pipes, lastPipeSpawn := moved.lastSpawn)
  }

  /**
   * `update`: the bird falls, the pipes move, collisions are checked, and
   * then scoring runs whatever the collision check decided.
   */
  function Update(g: Game, now: real, rand: real, canvasWidth: real, canvasHeight: real): (r: Step)
    requires 0.0 <= rand < 1.0
    requires !g.isGameOver
    ensures var m := Move(g, now, rand, canvasWidth);
      r.game.isGameOver <==> CheckCollisions(m.bird, m.pipes, canvasHeight) != NoHit
    ensures !r.game.isGameOver ==> r.game.isGameRunning == g.isGameRunning
    ensures r.game.isGameRunning == (g.isGameRunning && !r.game.isGameOver)
    ensures r.game.score >= g.score
    ensures r.game.bird == FlapBird.Update(g.bird)
    ensures var m := Move(g, now, rand, canvasWidth);
      r.game.score == g.score + ArenaPipes.NewlyPassed(m.pipes, m.bird.x)
    ensures var m := Move(g, now, rand, canvasWidth);
      && |r.game.pipes| == |m.pipes|
      && forall i :: 0 <= i < |m.pipes| ==>
        r.game.pipes[i] == m.pipes[i].(passed := m.pipes[i].passed || m.pipes[i].x + m.pipes[i].width < m.bird.x)
    ensures var m := Move(g, now, rand, canvasWidth);
      r.game == m.(pipes := r.game.pipes, score := r.game.score,
                   isGameOver := r.game.isGameOver, isGameRunning := r.game.isGameRunning)
  {
    var moved := Move(g, now, rand, canvasWidth);
    var ended := Collide(moved, canvasHeight);
    var scored := ScoreFrame(ended.game);
    Step(scored.game, ended.out + scored.out)
  }

  /**
   * What a frame tells the server: `Finished` exactly when the frame ends the
   * game, then preceded only by the score from before the frame; every other
   * request is a score.
   */
  lemma FrameRequests(g: Game, now: real, rand: real, canvasWidth: real, canvasHeight: real)
    requires 0.0 <= rand < 1.0
    requires !g.isGameOver
    ensures var r := Update(g, now, rand, canvasWidth, canvasHeight);
      && (r.game.isGameOver <==> Coordinator.Finished in r.out)
      && (r.game.isGameOver ==> |r.out| >= 2 && r.out[..2] == [Coordinator.Score(g.score), Coordinator.Finished])
      && (forall k :: 0 <= k < |r.out| && r.out[k] != Coordinator.Finished ==> r.out[k].Score?)
  {
    var moved := Move(g, now, rand, canvasWidth);
    var ended := Collide(moved, canvasHeight);
    var scored := ScoreFrame(ended.game);
    assert scored.game.isGameOver == ended.game.isGameOver;
    assert moved.score == g.score;
    assert Coordinator.Finished !in scored.out;
  }

  /**
   * Everything a frame sends, in order: the score from before the frame and
   * `Finished` when the frame ends the game, then one report for each point
   * scored, counting up from the old score.
   */
  lemma FrameOutput(g: Game, now: real, rand: real, canvasWidth: real, canvasHeight: real)
    requires 0.0 <= rand < 1.0
    requires !g.isGameOver
    ensures var r := Update(g, now, rand, canvasWidth, canvasHeight);
      r.out == (if r.game.isGameOver then [Coordinator.Score(g.score), Coordinator.Finished] else [])
               + ScoreRequests(seq(r.game.score - g.score, k => g.score + k + 1))
  {
    var moved := Move(g, now, rand, canvasWidth);
    var ended := Collide(moved, canvasHeight);
    assert ended.game.score == g.score;
    ScoreFrameReports(ended.game);
  }

  /** The scoring step's requests are the scores from one above the old score up to the new one. */
  lemma ScoreFrameReports(h: Game)
    ensures var r := ScoreFrame(h);
      r.out == ScoreRequests(seq(r.game.score - h.score, k => h.score + k + 1))
  {
    var r := ScoreFrame(h);
    var reports := seq(r.game.score - h.score, k => h.score + k + 1);
    assert r.out == ScoreRequests(reports);
  }

  /** The frame gate: the simulation only advances while running and not over. */
  predicate Advancing(g: Game) {
    g.isGameRunning && !g.isGameOver && !g.showGameOver
  }

  /** One animation frame. */
  function GameLoop(g: Game, now: real, rand: real, canvasWidth: real, canvasHeight: real): (r: Step)
    requires 0.0 <= rand < 1.0
    ensures !Advancing(g) ==> r == Step(g, [])
    ensures Advancing(g) ==> r == Update(g, now, rand, canvasWidth, canvasHeight)
  {
    if Advancing(g) then Update(g, now, rand, canvasWidth, canvasHeight) else Step(g, [])
  }

  // ---------------------------------------------------------------------------
  // Run lifecycle

  /** `resetGame`: a fresh run, with the bird back at its start. */
  function ResetGame(g: Game): (r: Game)
    ensures r.score == 0 && r.pipes == [] && !r.isGameOver && r.lastPipeSpawn == 0.0
    ensures r.bird == FlapBird.Reset(g.bird)
    ensures r.(score := g.score, pipes := g.pipes, isGameOver := g.isGameOver,
               lastPipeSpawn := g.lastPipeSpawn, bird := g.bird) == g
  {
    g.(score := 0, isGameOver := false, pipes := [], lastPipeSpawn := 0.0, bird := FlapBird.Reset(g.bird))
  }

  /** `startCountdown`: three seconds to go, the simulation held. */
  function StartCountdown(g: Game): (r: Game)
    ensures r.countdownValue == CountdownStart && r.countdownActive && !r.isGameRunning
    ensures r.(countdownValue := g.countdownValue, countdownActive := g.countdownActive,
               isGameRunning := g.isGameRunning) == g
  {
    g.(countdownValue := CountdownStart, isGameRunning := false, countdownActive := true)
  }

  /** One second of the countdown timer; at zero the timer stops and the run starts. */
  function CountdownTick(g: Game): (r: Game)
    ensures !g.countdownActive ==> r == g
    ensures g.countdownActive ==> r.countdownValue == g.countdownValue - 1
    ensures g.countdownActive ==> (r.isGameRunning <==> g.isGameRunning || r.countdownValue <= 0)
    ensures g.countdownActive ==> (r.countdownActive <==> r.countdownValue > 0)
    ensures r == g.(countdownValue := r.countdownValue, countdownActive := r.countdownActive,
                    isGameRunning := r.isGameRunning)
  {
    if !g.countdownActive then g
    else
      var v := g.countdownValue - 1;
      g.(countdownValue := v, countdownActive := v > 0, isGameRunning := g.isGameRunning || v <= 0)
  }

  /** The `gameStart` broadcast: a fresh run, no longer waiting, readiness cleared. */
  function OnGameStart(g: Game): (r: Game)
    ensures r.isGameStarted && !r.isGameOver && !r.isWaitingForPlayers && !r.isReady
    ensures r.score == 0 && r.pipes == [] && r.lastPipeSpawn == 0.0 && r.bird == FlapBird.Reset(g.bird)
    ensures r.(isGameStarted := g.isGameStarted, isGameOver := g.isGameOver,
               isWaitingForPlayers := g.isWaitingForPlayers, isReady := g.isReady,
               score := g.score, pipes := g.pipes, lastPipeSpawn := g.lastPipeSpawn, bird := g.bird) == g
  {
    ResetGame(g).(isGameStarted := true, isWaitingForPlayers := false, isGameOver := false, isReady := false)
  }

  /**
   * The frame after `gameStart`: another reset, then the countdown. Without a
   * canvas element the method returns before either, and no run starts.
   */
  function InitializeGame(g: Game, canvasReady: bool): (r: Game)
    ensures !canvasReady ==> r == g
    ensures canvasReady ==>
      && r.score == 0 && r.pipes == [] && !r.isGameOver && r.lastPipeSpawn == 0.0
      && r.bird == FlapBird.Reset(g.bird)
      && r.countdownActive && r.countdownValue == CountdownStart && !r.isGameRunning
    ensures canvasReady ==>
      r.(score := g.score, pipes := g.pipes, isGameOver := g.isGameOver, lastPipeSpawn := g.lastPipeSpawn,
         bird := g.bird, countdownActive := g.countdownActive, countdownValue := g.countdownValue,
         isGameRunning := g.isGameRunning) == g
  {
    if canvasReady then StartCountdown(ResetGame(g)) else g
  }

  /** `endGame`: the run is abandoned, the countdown cancelled; the game-over flag is left as it is. */
  function EndGame(g: Game): (r: Game)
    ensures !r.isGameStarted && !r.isGameRunning && !r.countdownActive
    ensures r.score == 0 && r.pipes == [] && r.bird == FlapBird.Reset(g.bird)
    ensures r.isGameOver == g.isGameOver
    ensures r.(isGameStarted := g.isGameStarted, isGameRunning := g.isGameRunning,
               countdownActive := g.countdownActive, pipes := g.pipes, score := g.score, bird := g.bird) == g
  {
    g.(isGameStarted := false, isGameRunning := false, countdownActive := false,
       pipes := [], score := 0, bird := FlapBird.Reset(g.bird))
  }

  /** The `gameEnd` broadcast: end the run and show the final standings. */
  function OnGameEnd(g: Game, snapshot: seq<Player>): (r: Game)
    ensures r.players == snapshot
    ensures r == EndGame(g).(players := snapshot)
  {
    EndGame(g).(players := snapshot)
  }

  // ---------------------------------------------------------------------------
  // Input

  /** A flap request: honoured only while a run is on and not over. */
  function Trigger(g: Game): (r: Game)
    ensures g.isGameStarted && !g.isGameOver ==> r == g.(bird := FlapBird.Jump(g.bird))
    ensures !(g.isGameStarted && !g.isGameOver) ==> r == g
  {
    if g.isGameStarted && !g.isGameOver then g.(bird := FlapBird.Jump(g.bird)) else g
  }

  /** The space bar flaps; every other key is ignored. */
  function OnKeyDown(g: Game, code: string): (r: Game)
    ensures code == "Space" ==> r == Trigger(g)
    ensures code != "Space" ==> r == g
  {
    if code == "Space" then Trigger(g) else g
  }

  /** The left button (button 0) flaps; the others are ignored. */
  function OnMouseUp(g: Game, button: int): (r: Game)
    ensures button == 0 ==> r == Trigger(g)
    ensures button != 0 ==> r == g
  {
    if button == 0 then Trigger(g) else g
  }

  // ---------------------------------------------------------------------------
  // Joining and readiness

  /** The characters `String.prototype.trim` strips: white space and line terminators. */
  predicate IsSpace(c: char) {
    var n := c as int;
    || 9 <= n <= 13 || n == 32 || n == 0xA0 || n == 0x1680 || 0x2000 <= n <= 0x200A
    || n == 0x2028 || n == 0x2029 || n == 0x202F || n == 0x205F || n == 0x3000 || n == 0xFEFF
  }

  function TrimStart(s: string): (r: string)
    ensures |r| <= |s| && r == s[|s| - |r|..]
    ensures |r| > 0 ==> !IsSpace(r[0])
    ensures forall i :: 0 <= i < |s| - |r| ==> IsSpace(s[i])
  {
    if |s| > 0 && IsSpace(s[0]) then TrimStart(s[1..]) else s
  }

  function TrimEnd(s: string): (r: string)
    ensures |r| <= |s| && r == s[..|r|]
    ensures |r| > 0 ==> !IsSpace(r[|r| - 1])
    ensures forall i :: |r| <= i < |s| ==> IsSpace(s[i])
  {
    if |s| > 0 && IsSpace(s[|s| - 1]) then TrimEnd(s[..|s| - 1]) else s
  }

  /** `String.prototype.trim`. */
  function Trim(s: string): string {
    TrimEnd(TrimStart(s))
  }

  /** A name trims to nothing exactly when every character of it is white space. */
  lemma BlankIffAllSpace(s: string)
    ensures |Trim(s)| == 0 <==> forall i :: 0 <= i < |s| ==> IsSpace(s[i])
  {
    var r := TrimStart(s);
    if |Trim(s)| > 0 {
      assert Trim(s)[0] == s[|s| - |r|];
    }
  }

  /** `joinGame`: with a name that is not blank, ask to join and wait for the others. */
  function JoinGame(g: Game): (r: Step)
    ensures |Trim(g.localPlayerName)| == 0 ==> r == Step(g, [])
    ensures |Trim(g.localPlayerName)| > 0 ==>
      && r.out == [Coordinator.Join(g.localPlayerName)]
      && r.game.isWaitingForPlayers && !r.game.isGameOver && !r.game.isGameStarted && !r.game.showCountdown
      && r.game.(isWaitingForPlayers := g.isWaitingForPlayers, isGameOver := g.isGameOver,
                 isGameStarted := g.isGameStarted, showCountdown := g.showCountdown) == g
  {
    if |Trim(g.localPlayerName)| > 0 then
      Step(g.(isWaitingForPlayers := true, isGameOver := false, isGameStarted := false, showCountdown := false),
           [Coordinator.Join(g.localPlayerName)])
    else Step(g, [])
  }

  /** `setReady`: always sent, whether or not this client has joined. */
  function SetReady(g: Game): (r: Step)
    ensures r.game == g.(isReady := true) && r.out == [Coordinator.Ready]
  {
    Step(g.(isReady := true), [Coordinator.Ready])
  }

  // ---------------------------------------------------------------------------
  // The end-of-session checks and the restart countdown

  datatype Checked = Checked(result: bool, game: Game)

  function StartRestartCountdown(g: Game): (r: Game)
    ensures r.restartCountdown == CountdownStart && r.restartActive
    ensures r.(restartCountdown := g.restartCountdown, restartActive := g.restartActive) == g
  {
    g.(restartCountdown := CountdownStart, restartActive := true)
  }

  /** Shared by both checks: when the test holds, the restart countdown starts once. */
  function ArmRestart(g: Game, allDone: bool): (r: Checked)
    ensures r.result == allDone
    ensures allDone && !g.showRestartCountdown ==>
      r.game.showRestartCountdown && r.game.restartActive && r.game.restartCountdown == CountdownStart
    ensures !(allDone && !g.showRestartCountdown) ==> r.game == g
  {
    if allDone && !g.showRestartCountdown then
      Checked(true, StartRestartCountdown(g.(showRestartCountdown := true)))
    else Checked(allDone, g)
  }

  /** The test `areAllPlayersFinished` applies: someone is listed and everyone listed is finished. */
  predicate EveryoneFinished(ps: seq<Player>) {
    |ps| > 0 && forall i :: 0 <= i < |ps| ==> ps[i].isFinished
  }

  /** The test `areAllPlayersGameOver` applies: everyone listed has a positive score. */
  predicate EveryoneScored(ps: seq<Player>) {
    forall i :: 0 <= i < |ps| ==> ps[i].score > 0
  }

  /** `areAllPlayersFinished`. */
  function AreAllPlayersFinished(g: Game): (r: Checked)
    ensures r.result <==> |g.players| > 0 && forall p :: p in g.players ==> p.isFinished
    ensures r.result && !g.showRestartCountdown ==>
      r.game == StartRestartCountdown(g.(showRestartCountdown := true))
    ensures !(r.result && !g.showRestartCountdown) ==> r.game == g
  {
    ArmRestart(g, EveryoneFinished(g.players))
  }

  /** `areAllPlayersGameOver`, as written: it tests scores, not the finished flags. */
  function AreAllPlayersGameOver(g: Game): (r: Checked)
    ensures r.result <==> forall p :: p in g.players ==> p.score > 0
    ensures r.result && !g.showRestartCountdown ==>
      r.game == StartRestartCountdown(g.(showRestartCountdown := true))
    ensures !(r.result && !g.showRestartCountdown) ==> r.game == g
  {
    ArmRestart(g, EveryoneScored(g.players))
  }

  /**
   * The timer's last second: the countdown stops, the client leaves game over
   * and waits again with readiness cleared, then `joinGame` runs as usual.
   */
  function Rejoin(g: Game): (r: Step)
    ensures && !r.game.restartActive && !r.game.showRestartCountdown && !r.game.isGameOver
            && !r.game.isGameStarted && r.game.isWaitingForPlayers && !r.game.isReady
    ensures r.game.restartCountdown == g.restartCountdown - 1
    ensures r.out == (if |Trim(g.localPlayerName)| > 0 then [Coordinator.Join(g.localPlayerName)] else [])
    ensures |Trim(g.localPlayerName)| > 0 ==> !r.game.showCountdown
    ensures |Trim(g.localPlayerName)| == 0 ==> r.game.showCountdown == g.showCountdown
    ensures r.game == g.(restartCountdown := r.game.restartCountdown, restartActive := false,
                         showRestartCountdown := false, isGameOver := false, isGameStarted := false,
                         isWaitingForPlayers := true, isReady := false, showCountdown := r.game.showCountdown)
  {
    JoinGame(g.(restartCountdown := g.restartCountdown - 1, restartActive := false, showRestartCountdown := false,
                isGameOver := false, isGameStarted := false, isWaitingForPlayers := true, isReady := false))
  }

  /** One second of the restart countdown; at zero the client rejoins under the same name. */
  function RestartTick(g: Game): (r: Step)
    ensures !g.restartActive ==> r == Step(g, [])
    ensures g.restartActive && g.restartCountdown - 1 > 0 ==>
      r == Step(g.(restartCountdown := g.restartCountdown - 1), [])
    ensures g.restartActive && g.restartCountdown - 1 <= 0 ==> r == Rejoin(g)
  {
    if !g.restartActive then Step(g, [])
    else if g.restartCountdown - 1 > 0 then Step(g.(restartCountdown := g.restartCountdown - 1), [])
    else Rejoin(g)
  }

  // ---------------------------------------------------------------------------
  // Every input the client reacts to

  datatype Input =
    | Frame(now: real, rand: real, canvasWidth: real, canvasHeight: real)
    | KeyDown(code: string)
    | MouseUp(button: int)
    | TouchStart
    | PlayersMsg(snapshot: seq<Player>)
    | GameStartMsg
    /** The frame `gameStart` schedules; `canvasReady` is whether the canvas element exists by then. */
    | InitFrame(canvasReady: bool)
    | GameEndMsg(snapshot: seq<Player>)
    | CountdownSecond
    | RestartSecond
    | NameTyped(name: string)
    | JoinClicked
    | ReadyClicked
    /** The end-of-session check, by finished flags (see `GameOverCheckMisreadsScores` for the score variant). */
    | FinishedCheck

  predicate ValidInput(i: Input) {
    i.Frame? ==> 0.0 <= i.rand < 1.0
  }

  function HandleInput(g: Game, i: Input): Step
    requires ValidInput(i)
  {
    match i
    case Frame(now, rand, w, h) => GameLoop(g, now, rand, w, h)
    case KeyDown(code) => Step(OnKeyDown(g, code), [])
    case MouseUp(button) => Step(OnMouseUp(g, button), [])
    case TouchStart => Step(Trigger(g), [])
    case PlayersMsg(snapshot) => Step(g.(players := snapshot), [])
    case GameStartMsg => Step(OnGameStart(g), [])
    case InitFrame(canvasReady) => Step(InitializeGame(g, canvasReady), [])
    case GameEndMsg(snapshot) => Step(OnGameEnd(g, snapshot), [])
    case CountdownSecond => Step(CountdownTick(g), [])
    case RestartSecond => RestartTick(g)
    case NameTyped(name) => Step(g.(localPlayerName := name), [])
    case JoinClicked => JoinGame(g)
    case ReadyClicked => SetReady(g)
    case FinishedCheck => Step(AreAllPlayersFinished(g).game, [])
  }

  function RunInputs(g: Game, inputs: seq<Input>): Step
    requires forall k :: 0 <= k < |inputs| ==> ValidInput(inputs[k])
    decreases |inputs|
  {
    if |inputs| == 0 then Step(g, [])
    else
      var first := HandleInput(g, inputs[0]);
      var rest := RunInputs(first.game, inputs[1..]);
      Step(rest.game, first.out + rest.out)
  }

  // ---------------------------------------------------------------------------
  // Properties

  /**
   * The lifecycle invariant: a game that is over is not running, and while the
   * countdown runs the game neither runs nor is over.
   */
  ghost predicate Consistent(g: Game) {
    && (g.isGameOver ==> !g.isGameRunning)
    && (g.countdownActive ==> !g.isGameRunning && !g.isGameOver)
  }

  lemma HandleInputKeepsConsistent(g: Game, i: Input)
    requires ValidInput(i) && Consistent(g)
    ensures Consistent(HandleInput(g, i).game)
  {
    match i
    case Frame(now, rand, w, h) => FrameKeepsConsistent(g, now, rand, w, h);
    case KeyDown(code) =>
    case MouseUp(button) =>
    case TouchStart =>
    case PlayersMsg(snapshot) =>
    case GameStartMsg => StartKeepsConsistent(g);
    case InitFrame(canvasReady) => InitKeepsConsistent(g, canvasReady);
    case GameEndMsg(snapshot) => EndKeepsConsistent(g, snapshot);
    case CountdownSecond => TickKeepsConsistent(g);
    case RestartSecond => RestartKeepsConsistent(g);
    case NameTyped(name) =>
    case JoinClicked => JoinKeepsConsistent(g);
    case ReadyClicked =>
    case FinishedCheck => CheckKeepsConsistent(g);
  }

  lemma StartKeepsConsistent(g: Game)
    requires Consistent(g)
    ensures Consistent(OnGameStart(g))
  {
  }

  lemma InitKeepsConsistent(g: Game, canvasReady: bool)
    requires Consistent(g)
    ensures Consistent(InitializeGame(g, canvasReady))
  {
  }

  lemma EndKeepsConsistent(g: Game, snapshot: seq<Player>)
    requires Consistent(g)
    ensures Consistent(OnGameEnd(g, snapshot))
  {
  }

  lemma TickKeepsConsistent(g: Game)
    requires Consistent(g)
    ensures Consistent(CountdownTick(g))
  {
  }

  lemma CheckKeepsConsistent(g: Game)
    requires Consistent(g)
    ensures Consistent(AreAllPlayersFinished(g).game)
  {
  }

  lemma JoinKeepsConsistent(g: Game)
    requires Consistent(g)
    ensures Consistent(JoinGame(g).game)
  {
  }

  lemma RestartKeepsConsistent(g: Game)
    requires Consistent(g)
    ensures Consistent(RestartTick(g).game)
  {
    if g.restartActive && g.restartCountdown - 1 <= 0 {
      var h := g.(restartCountdown := g.restartCountdown - 1, restartActive := false, showRestartCountdown := false,
                  isGameOver := false, isGameStarted := false, isWaitingForPlayers := true, isReady := false);
      JoinKeepsConsistent(h);
    }
  }

  lemma FrameKeepsConsistent(g: Game, now: real, rand: real, canvasWidth: real, canvasHeight: real)
    requires 0.0 <= rand < 1.0 && Consistent(g)
    ensures Consistent(GameLoop(g, now, rand, canvasWidth, canvasHeight).game)
  {
    if Advancing(g) {
      var m := Move(g, now, rand, canvasWidth);
      var ended := Collide(m, canvasHeight);
      assert ended.game.isGameOver ==> !ended.game.isGameRunning;
    }
  }

  /** Every sequence of inputs keeps the lifecycle invariant. */
  lemma {:induction false} RunInputsKeepsConsistent(g: Game, inputs: seq<Input>)
    requires forall k :: 0 <= k < |inputs| ==> ValidInput(inputs[k])
    requires Consistent(g)
    ensures Consistent(RunInputs(g, inputs).game)
    decreases |inputs|
  {
    if |inputs| > 0 {
      HandleInputKeepsConsistent(g, inputs[0]);
      RunInputsKeepsConsistent(HandleInput(g, inputs[0]).game, inputs[1..]);
    }
  }

  /** Once the game is over, frames change nothing and send nothing, however many pass. */
  lemma {:induction false} OverIsFrozen(g: Game, frames: seq<Input>)
    requires g.isGameOver
    requires forall k :: 0 <= k < |frames| ==> frames[k].Frame? && ValidInput(frames[k])
    ensures RunInputs(g, frames) == Step(g, [])
    decreases |frames|
  {
    if |frames| > 0 {
      assert HandleInput(g, frames[0]) == Step(g, []);
      OverIsFrozen(g, frames[1..]);
    }
  }

  /** The countdown timer after `n` seconds. */
  function Seconds(g: Game, n: nat): Game {
    if n == 0 then g else CountdownTick(Seconds(g, n - 1))
  }

  /** The run starts exactly when the third second of the countdown has passed. */
  lemma {:induction false} CountdownStartsAfterThree(g: Game, n: nat)
    requires !g.isGameRunning
    ensures Seconds(StartCountdown(g), n).isGameRunning <==> n >= 3
    ensures Seconds(StartCountdown(g), n).countdownValue == if n >= 3 then 0 else 3 - n
    ensures Seconds(StartCountdown(g), n).countdownActive <==> n < 3
  {
    if n > 0 {
      CountdownStartsAfterThree(g, n - 1);
    }
  }

  /** A bird strictly inside a pipe's gap does not hit that pipe, wherever it is horizontally. */
  lemma InsideGapIsSafe(b: FlapBird.Bird, p: Pipe, canvasHeight: real)
    requires b.y > p.topHeight && b.y + b.height < p.topHeight + p.gap
    ensures !HitsPipe(b, p, canvasHeight)
  {
  }

  /** Touching the rim of the gap, or the front of the pipe, is not a hit: the test is strict. */
  lemma RimContactIsSafe(b: FlapBird.Bird, p: Pipe, canvasHeight: real)
    requires b.height >= 0.0
    requires (b.y == p.topHeight && b.y + b.height <= p.topHeight + p.gap) || b.x + b.width == p.x
    ensures !HitsPipe(b, p, canvasHeight)
  {
    if b.x + b.width == p.x {
      Boxes.TouchingEdgesDoNotOverlap(BirdBox(b), TopPart(p));
      Boxes.TouchingEdgesDoNotOverlap(BirdBox(b), BottomPart(p, canvasHeight));
    }
  }

  // The three stages of the frame in `ScoreReportedAfterGameOver`.

  lemma ExampleMove(g: Game)
    requires g.bird == FlapBird.Bird(250.0, 300.0, 40.0, 30.0, 0.0) && g.lastPipeSpawn == 1000.0
    requires g.pipes == [ArenaPipes.Pipe(100.0, 80.0, 100.0, 250.0, false), ArenaPipes.Pipe(270.0, 80.0, 50.0, 250.0, false)]
    ensures var m := Move(g, 2000.0, 0.5, 800.0);
      && m.pipes == [ArenaPipes.Pipe(98.0, 80.0, 100.0, 250.0, false), ArenaPipes.Pipe(268.0, 80.0, 50.0, 250.0, false)]
      && m.bird == FlapBird.Bird(250.0, 300.08, 40.0, 30.0, 0.08)
  {
    var behind, ahead := g.pipes[0], g.pipes[1];
    var behind', ahead' := behind.(x := 98.0), ahead.(x := 268.0);
    assert ArenaPipes.WithSpawn(g.pipes, 1000.0, 2000.0, 800.0, 0.5) == [behind, ahead];
    assert ArenaPipes.MoveAll([behind, ahead]) == [behind', ahead'] by {
      assert ArenaPipes.Shift(behind) == behind' && ArenaPipes.Shift(ahead) == ahead';
    }
    assert ArenaPipes.Cull([behind', ahead']) == [behind', ahead'] by {
      assert [behind', ahead'][1..] == [ahead'];
      assert ArenaPipes.Cull([ahead']) == [ahead'];
    }
  }

  lemma ExampleCollide(m: Game)
    requires !m.isGameOver && m.bird == FlapBird.Bird(250.0, 300.08, 40.0, 30.0, 0.08)
    requires m.pipes == [ArenaPipes.Pipe(98.0, 80.0, 100.0, 250.0, false), ArenaPipes.Pipe(268.0, 80.0, 50.0, 250.0, false)]
    ensures Collide(m, 700.0) == GameOver(m)
  {
    assert HitsPipe(m.bird, m.pipes[1], 700.0);
  }

  lemma ExampleScore(h: Game)
    requires h.bird.x == 250.0 && h.score == 4
    requires h.pipes == [ArenaPipes.Pipe(98.0, 80.0, 100.0, 250.0, false), ArenaPipes.Pipe(268.0, 80.0, 50.0, 250.0, false)]
    ensures ScoreFrame(h).out == [Coordinator.Score(5)]
  {
    ArenaPipes.NewlyPassedCons(h.pipes, 250.0);
    ArenaPipes.NewlyPassedCons(h.pipes[1..], 250.0);
    assert h.pipes[1..][1..] == [];
  }

  /**
   * The server hears about the collision first, with the score from before
   * this frame's scoring, and then about any point scored in the same frame:
   * a bird that passes one pipe as it hits the next one reports
   * `Score(s)`, `Finished`, `Score(s + 1)`.
   */
  lemma ScoreReportedAfterGameOver()
    ensures var bird := FlapBird.Bird(250.0, 300.0, 40.0, 30.0, 0.0);
      var behind := ArenaPipes.Pipe(100.0, 80.0, 100.0, 250.0, false);
      var ahead := ArenaPipes.Pipe(270.0, 80.0, 50.0, 250.0, false);
      var g := Initial.(bird := bird, pipes := [behind, ahead], score := 4, lastPipeSpawn := 1000.0, isGameRunning := true);
      Update(g, 2000.0, 0.5, 800.0, 700.0).out
        == [Coordinator.Score(4), Coordinator.Finished, Coordinator.Score(5)]
  {
    var bird := FlapBird.Bird(250.0, 300.0, 40.0, 30.0, 0.0);
    var behind := ArenaPipes.Pipe(100.0, 80.0, 100.0, 250.0, false);
    var ahead := ArenaPipes.Pipe(270.0, 80.0, 50.0, 250.0, false);
    var g := Initial.(bird := bird, pipes := [behind, ahead], score := 4, lastPipeSpawn := 1000.0, isGameRunning := true);
    var m := Move(g, 2000.0, 0.5, 800.0);
    ExampleMove(g);
    ExampleCollide(m);
    var ended := Collide(m, 700.0);
    ExampleScore(ended.game);
  }

  /**
   * The score test of `areAllPlayersGameOver` and the finished test of
   * `areAllPlayersFinished` disagree both ways: a player still flying with
   * three points passes the first and fails the second, while a player who
   * crashed before scoring fails the first, which then arms no restart, and
   * passes the second. Which of the two the view calls is not part of this model.
   */
  lemma GameOverCheckMisreadsScores(g: Game, id: Coordinator.SocketId)
    ensures var flying := g.(players := [Coordinator.Player(id, "ann", 3, true, false)]);
      AreAllPlayersGameOver(flying).result && !AreAllPlayersFinished(flying).result
    ensures var crashed := g.(players := [Coordinator.Player(id, "ann", 0, true, true)]);
      && !AreAllPlayersGameOver(crashed).result && AreAllPlayersFinished(crashed).result
      && AreAllPlayersGameOver(crashed).game == crashed
    ensures var nobody := g.(players := []);
      AreAllPlayersGameOver(nobody).result && !AreAllPlayersFinished(nobody).result
  {
    var flying := [Coordinator.Player(id, "ann", 3, true, false)];
    assert !flying[0].isFinished;
    var crashed := [Coordinator.Player(id, "ann", 0, true, true)];
    assert crashed[0].score == 0;
  }
}

=== FILE: arena_pipes.dfy ===
/**
 * The pipes of the multiplayer game: spawning on a timer at the right edge of
 * the canvas, moving left at a constant speed, leaving the list once off screen,
 * and scoring once each when the bird has flown past them.
 */
module ArenaPipes {
  import Seqs

  const PipeSpeed: real := 2.0
  /** Milliseconds between two spawns. */
  const SpawnInterval: real := 2500.0
  const PipeGap: real := 250.0
  const PipeWidth: real := 80.0
  const MinPipeHeight: real := 50.0
  const MaxPipeHeight: real := 300.0

  datatype Pipe = Pipe(x: real, width: real, topHeight: real, gap: real, passed: bool)

  /** A new pipe at the right edge with its top part's height drawn from `rand` in [0, 1). */
  function SpawnPipe(canvasWidth: real, rand: real): (p: Pipe)
    requires 0.0 <= rand < 1.0
    ensures MinPipeHeight <= p.topHeight < MaxPipeHeight
    ensures p.x == canvasWidth && p.width == PipeWidth && p.gap == PipeGap && !p.passed
  {
    Pipe(canvasWidth, PipeWidth, rand * (MaxPipeHeight - MinPipeHeight) + MinPipeHeight, PipeGap, false)
  }

  /** One pipe's move: left by the speed, flagged as passed once wholly off the left edge. */
  function Shift(p: Pipe): (r: Pipe)
    ensures r.x == p.x - PipeSpeed
    ensures r.x + r.width > 0.0 ==> r == p.(x := p.x - PipeSpeed)
  {
    var x := p.x - PipeSpeed;
    p.(x := x, passed := if x + p.width < 0.0 then true else p.passed)
  }

  function MoveAll(ps: seq<Pipe>): (r: seq<Pipe>)
    ensures |r| == |ps|
    ensures forall i :: 0 <= i < |ps| ==> r[i] == Shift(ps[i])
  {
    if |ps| == 0 then [] else [Shift(ps[0])] + MoveAll(ps[1..])
  }

  predicate OnScreen(p: Pipe) {
    p.x + p.width > 0.0
  }

  /** `pipes.filter(pipe => pipe.x + pipe.width > 0)`. */
  function Cull(ps: seq<Pipe>): (r: seq<Pipe>)
    ensures forall q :: q in r <==> q in ps && OnScreen(q)
    ensures Seqs.Subsequence(r, ps)
    ensures |r| <= |ps|
  {
    if |ps| == 0 then []
    else if OnScreen(ps[0]) then [ps[0]] + Cull(ps[1..])
    else Cull(ps[1..])
  }

  /** A last pipe still on screen stays last: the filter keeps the newest pipe at the back. */
  lemma {:induction false} CullKeepsLast(ps: seq<Pipe>)
    requires |ps| > 0 && OnScreen(ps[|ps| - 1])
    ensures |Cull(ps)| > 0 && Cull(ps)[|Cull(ps)| - 1] == ps[|ps| - 1]
    decreases |ps|
  {
    if |ps| > 1 {
      CullKeepsLast(ps[1..]);
    }
  }

  /** The pipe list and spawn time after `updatePipes`. */
  datatype Moved = Moved(pipes: seq<Pipe>, lastSpawn: real)

  predicate SpawnDue(lastSpawn: real, now: real) {
    now - lastSpawn > SpawnInterval
  }

  /** The list `updatePipes` moves: the old pipes, plus a new one when a spawn is due. */
  function WithSpawn(ps: seq<Pipe>, lastSpawn: real, now: real, canvasWidth: real, rand: real): seq<Pipe>
    requires 0.0 <= rand < 1.0
  {
    if SpawnDue(lastSpawn, now) then ps + [SpawnPipe(canvasWidth, rand)] else ps
  }

  /**
   * One frame of `updatePipes`: spawn when due (and restart the timer), move
   * every pipe, and drop those that have left the screen.
   */
  function UpdatePipes(ps: seq<Pipe>, lastSpawn: real, now: real, canvasWidth: real, rand: real): (r: Moved)
    requires 0.0 <= rand < 1.0
    ensures SpawnDue(lastSpawn, now) ==> r.lastSpawn == now
    ensures !SpawnDue(lastSpawn, now) ==> r.lastSpawn == lastSpawn
    ensures forall q :: q in r.pipes ==> OnScreen(q)
    ensures Seqs.Subsequence(r.pipes, MoveAll(WithSpawn(ps, lastSpawn, now, canvasWidth, rand)))
    ensures forall i :: 0 <= i < |ps| && OnScreen(Shift(ps[i])) ==> Shift(ps[i]) in r.pipes
    ensures |r.pipes| <= |ps| + 1
    ensures SpawnDue(lastSpawn, now) && OnScreen(Shift(SpawnPipe(canvasWidth, rand))) ==>
      |r.pipes| > 0 && r.pipes[|r.pipes| - 1] == Shift(SpawnPipe(canvasWidth, rand))
    ensures !SpawnDue(lastSpawn, now) ==> |r.pipes| <= |ps|
  {
    var spawned := WithSpawn(ps, lastSpawn, now, canvasWidth, rand);
    var moved := MoveAll(spawned);
    assert forall i :: 0 <= i < |ps| ==> moved[i] == Shift(ps[i]);
    assert SpawnDue(lastSpawn, now) && OnScreen(Shift(SpawnPipe(canvasWidth, rand))) ==>
      |Cull(moved)| > 0 && Cull(moved)[|Cull(moved)| - 1] == moved[|moved| - 1] by {
      if SpawnDue(lastSpawn, now) && OnScreen(Shift(SpawnPipe(canvasWidth, rand))) {
        CullKeepsLast(moved);
      }
    }
    Moved(Cull(moved), if SpawnDue(lastSpawn, now) then now else lastSpawn)
  }

  // ---------------------------------------------------------------------------
  // Scoring

  predicate Passing(p: Pipe, birdX: real) {
    !p.passed && p.x + p.width < birdX
  }

  /** How many pipes score in this frame, counted from the back of the list. */
  function NewlyPassed(ps: seq<Pipe>, birdX: real): nat {
    if |ps| == 0 then 0
    else NewlyPassed(ps[..|ps| - 1], birdX) + (if Passing(ps[|ps| - 1], birdX) then 1 else 0)
  }

  /** The pipes, the score, and every score reported to the server in this frame, in order. */
  datatype Scored = Scored(pipes: seq<Pipe>, score: int, reports: seq<int>)

  /**
   * `updateScore`: each pipe the bird is past and that has not scored yet is
   * flagged and adds one point; every new score is reported as it is reached.
   */
  function ScorePipes(ps: seq<Pipe>, birdX: real, score: int): (r: Scored)
    ensures |r.pipes| == |ps|
    ensures forall i :: 0 <= i < |ps| ==>
      r.pipes[i] == ps[i].(passed := ps[i].passed || ps[i].x + ps[i].width < birdX)
    ensures r.score == score + NewlyPassed(ps, birdX)
    ensures |r.reports| == r.score - score
    ensures forall k :: 0 <= k < |r.reports| ==> r.reports[k] == score + k + 1
    decreases |ps|
  {
    if |ps| == 0 then Scored([], score, [])
    else
      var p := ps[0];
      var now := if Passing(p, birdX) then score + 1 else score;
      var rest := ScorePipes(ps[1..], birdX, now);
      NewlyPassedCons(ps, birdX);
      Scored([p.(passed := p.passed || p.x + p.width < birdX)] + rest.pipes,
             rest.score,
             (if Passing(p, birdX) then [score + 1] else []) + rest.reports)
  }

  /** The count from the back agrees with a count from the front. */
  lemma {:induction false} NewlyPassedCons(ps: seq<Pipe>, birdX: real)
    requires |ps| > 0
    ensures NewlyPassed(ps, birdX) == (if Passing(ps[0], birdX) then 1 else 0) + NewlyPassed(ps[1..], birdX)
    decreases |ps|
  {
    if |ps| > 1 {
      var init := ps[..|ps| - 1];
      NewlyPassedCons(init, birdX);
      assert init[0] == ps[0];
      assert init[1..] == ps[1..][..|ps[1..]| - 1];
      assert ps[1..][|ps[1..]| - 1] == ps[|ps| - 1];
    } else {
      assert ps[1..] == [];
      assert ps[..|ps| - 1] == [];
    }
  }

  // ---------------------------------------------------------------------------
  // Properties

  /** Every height in the band is the top height of some spawn: the band is exactly [50, 300). */
  lemma SpawnCoversBand(canvasWidth: real, topHeight: real)
    requires MinPipeHeight <= topHeight < MaxPipeHeight
    ensures var rand := (topHeight - MinPipeHeight) / (MaxPipeHeight - MinPipeHeight);
      0.0 <= rand < 1.0 && SpawnPipe(canvasWidth, rand).topHeight == topHeight
  {
  }

  /** A pipe that scored never scores again: a second pass adds nothing and reports nothing. */
  lemma ScoringIsOnce(ps: seq<Pipe>, birdX: real, score: int)
    ensures var r := ScorePipes(ps, birdX, score);
      ScorePipes(r.pipes, birdX, r.score) == Scored(r.pipes, r.score, [])
  {
    var r := ScorePipes(ps, birdX, score);
    var again := ScorePipes(r.pipes, birdX, r.score);
    NoneLeftToPass(r.pipes, birdX);
    assert again.pipes == r.pipes;
  }

  /** No pipe is left to score when every pipe behind the bird is flagged. */
  lemma {:induction false} NoneLeftToPass(ps: seq<Pipe>, birdX: real)
    requires forall i :: 0 <= i < |ps| ==> !Passing(ps[i], birdX)
    ensures NewlyPassed(ps, birdX) == 0
  {
    if |ps| > 0 {
      NoneLeftToPass(ps[..|ps| - 1], birdX);
    }
  }

  /**
   * The `passed` flag `updatePipes` sets never survives its own filter: every
   * pipe it keeps is an old (or the new) pipe moved left and nothing else.
   */
  lemma MoveMarkNeverSurvives(ps: seq<Pipe>, lastSpawn: real, now: real, canvasWidth: real, rand: real)
    requires 0.0 <= rand < 1.0
    ensures forall q :: q in UpdatePipes(ps, lastSpawn, now, canvasWidth, rand).pipes ==>
      exists p :: p in WithSpawn(ps, lastSpawn, now, canvasWidth, rand) && q == p.(x := p.x - PipeSpeed)
  {
    var spawned := WithSpawn(ps, lastSpawn, now, canvasWidth, rand);
    var moved := MoveAll(spawned);
    forall q | q in UpdatePipes(ps, lastSpawn, now, canvasWidth, rand).pipes
      ensures exists p :: p in spawned && q == p.(x := p.x - PipeSpeed)
    {
      assert q in moved;
      var i :| 0 <= i < |moved| && moved[i] == q;
      assert q == spawned[i].(x := spawned[i].x - PipeSpeed);
    }
  }

  /** Pipes are in left-to-right order. */
  ghost predicate Ordered(ps: seq<Pipe>) {
    forall i, j :: 0 <= i < j < |ps| ==> ps[i].x < ps[j].x
  }

  /** Every pipe lies left of the spawn edge. */
  ghost predicate LeftOf(ps: seq<Pipe>, canvasWidth: real) {
    forall i :: 0 <= i < |ps| ==> ps[i].x < canvasWidth
  }

  lemma {:induction false} CullKeepsOrder(ps: seq<Pipe>)
    requires Ordered(ps)
    ensures Ordered(Cull(ps))
    decreases |ps|
  {
    if |ps| > 0 {
      CullKeepsOrder(ps[1..]);
      var rest := Cull(ps[1..]);
      if OnScreen(ps[0]) {
        forall j | 0 <= j < |rest| ensures ps[0].x < rest[j].x {
          assert rest[j] in ps[1..];
        }
        assert Cull(ps) == [ps[0]] + rest;
      }
    }
  }

  /**
   * With a fixed canvas width, the list stays in left-to-right order: a new
   * pipe starts right of every pipe already there, and moves keep distances.
   */
  lemma UpdatePipesKeepsOrder(ps: seq<Pipe>, lastSpawn: real, now: real, canvasWidth: real, rand: real)
    requires 0.0 <= rand < 1.0
    requires Ordered(ps) && LeftOf(ps, canvasWidth)
    ensures var r := UpdatePipes(ps, lastSpawn, now, canvasWidth, rand).pipes;
      Ordered(r) && LeftOf(r, canvasWidth)
  {
    var spawned := WithSpawn(ps, lastSpawn, now, canvasWidth, rand);
    assert Ordered(spawned);
    var moved := MoveAll(spawned);
    assert Ordered(moved);
    CullKeepsOrder(moved);
    var r := Cull(moved);
    forall i | 0 <= i < |r| ensures r[i].x < canvasWidth {
      assert r[i] in moved;
    }
  }
}

=== FILE: boxes.dfy ===
/**
 * Axis-aligned rectangles in canvas coordinates (y grows downwards) and the
 * multiplayer game's overlap test between two of them.
 */
module Boxes {
  import opened Reals

  datatype Box = Box(x: real, y: real, width: real, height: real)

  /** A point strictly inside a box. */
  ghost predicate Inside(b: Box, px: real, py: real) {
    b.x < px < b.x + b.width && b.y < py < b.y + b.height
  }

  /** Strict overlap on both axes: boxes that only share an edge do not collide. */
  predicate Overlaps(a: Box, b: Box) {
    && a.x < b.x + b.width
    && a.x + a.width > b.x
    && a.y < b.y + b.height
    && a.y + a.height > b.y
  }

  // ---------------------------------------------------------------------------
  // Properties

  /** The test does not depend on which box is the bird. */
  lemma OverlapsSymmetric(a: Box, b: Box)
    ensures Overlaps(a, b) <==> Overlaps(b, a)
  {
  }

  /** Two boxes placed edge to edge, side by side or one above the other, do not collide. */
  lemma TouchingEdgesDoNotOverlap(a: Box, b: Box)
    requires b.x == a.x + a.width || b.y == a.y + a.height
    ensures !Overlaps(a, b) && !Overlaps(b, a)
  {
  }

  /**
   * For boxes of positive size, the test is exactly "some point lies strictly
   * inside both": the centre of the intersection is a witness.
   */
  lemma OverlapsIffCommonPoint(a: Box, b: Box)
    requires a.width > 0.0 && a.height > 0.0 && b.width > 0.0 && b.height > 0.0
    ensures Overlaps(a, b) <==> exists px, py :: Inside(a, px, py) && Inside(b, px, py)
  {
    if Overlaps(a, b) {
      var left := Max(a.x, b.x);
      var right := Min(a.x + a.width, b.x + b.width);
      var top := Max(a.y, b.y);
      var bottom := Min(a.y + a.height, b.y + b.height);
      var px, py := (left + right) / 2.0, (top + bottom) / 2.0;
      assert Inside(a, px, py) && Inside(b, px, py);
    }
  }
}

=== FILE: coordinator.dfy ===
/**
 * The session coordinator: one global player map keyed by socket id plus a
 * `gameStarted` flag, driven by five socket events. Every handler is a pure
 * function from the session, the sending socket and the payload to the new
 * session and the messages it broadcasts, in broadcast order.
 */
module Coordinator {
  import opened Wrappers
  import Seqs

  type SocketId = string

  datatype Player = Player(id: SocketId, name: string, score: int, isReady: bool, isFinished: bool)

  /** Broadcasts to every connected client. */
  datatype Message =
    | Players(snapshot: seq<Player>)
    | GameStart
    | GameEnd(snapshot: seq<Player>)

  /** The player map in insertion order (the order `players.values()` yields), and the flag. */
  datatype Session = Session(players: seq<Player>, gameStarted: bool)

  datatype Step = Step(session: Session, out: seq<Message>)

  /** The socket events a client can cause. */
  datatype Event = Join(name: string) | Ready | Score(score: int) | Finished | Leave

  const Initial: Session := Session([], false)

  // ---------------------------------------------------------------------------
  // The player map as an ordered list of entries

  function Ids(ps: seq<Player>): (r: seq<SocketId>)
    ensures |r| == |ps|
    ensures forall i :: 0 <= i < |ps| ==> r[i] == ps[i].id
  {
    if |ps| == 0 then [] else [ps[0].id] + Ids(ps[1..])
  }

  /** No socket id has two entries: what a JS `Map` guarantees by construction. */
  ghost predicate UniqueIds(ps: seq<Player>) {
    Distinct(Ids(ps))
  }

  ghost predicate Distinct<T>(xs: seq<T>) {
    forall i, j :: 0 <= i < j < |xs| ==> xs[i] != xs[j]
  }

  /** `players.get(id)`. */
  function Get(ps: seq<Player>, id: SocketId): (r: Option<Player>)
    ensures r.Some? ==> r.value in ps && r.value.id == id
  {
    if |ps| == 0 then None
    else if ps[0].id == id then Some(ps[0])
    else Get(ps[1..], id)
  }

  /** A lookup fails exactly when no entry carries the key. */
  lemma {:induction false} GetFailsIffAbsent(ps: seq<Player>, id: SocketId)
    ensures Get(ps, id).None? <==> id !in Ids(ps)
    decreases |ps|
  {
    if |ps| > 0 {
      GetFailsIffAbsent(ps[1..], id);
      assert Ids(ps) == [ps[0].id] + Ids(ps[1..]);
    }
  }

  /** `players.set(p.id, p)`: an existing entry is replaced where it stands, a new one is appended. */
  function Set(ps: seq<Player>, p: Player): (r: seq<Player>)
    ensures Get(r, p.id) == Some(p)
    ensures forall other :: other != p.id ==> Get(r, other) == Get(ps, other)
    decreases |ps|
  {
    if |ps| == 0 then
      GetCons(p, []);
      [p]
    else if ps[0].id == p.id then
      GetCons(ps[0], ps[1..]);
      GetCons(p, ps[1..]);
      [p] + ps[1..]
    else
      var rest := Set(ps[1..], p);
      GetCons(ps[0], ps[1..]);
      GetCons(ps[0], rest);
      [ps[0]] + rest
  }

  /**
   * JS `Map.set` keeps insertion order: a key already present keeps its position,
   * a new key goes to the end.
   */
  lemma {:induction false} SetKeepsPosition(ps: seq<Player>, p: Player)
    ensures Ids(Set(ps, p)) == if p.id in Ids(ps) then Ids(ps) else Ids(ps) + [p.id]
    decreases |ps|
  {
    if |ps| == 0 {
      IdsCons(p, []);
    } else if ps[0].id == p.id {
      IdsCons(ps[0], ps[1..]);
      IdsCons(p, ps[1..]);
    } else {
      var rest := ps[1..];
      var x := ps[0].id;
      assert Ids(Set(ps, p)) == [x] + Ids(Set(rest, p)) by {
        assert Set(ps, p) == [ps[0]] + Set(rest, p);
        IdsCons(ps[0], Set(rest, p));
      }
      assert Ids(ps) == [x] + Ids(rest) by {
        assert ps == [ps[0]] + rest;
        IdsCons(ps[0], rest);
      }
      SetKeepsPosition(rest, p);
      if p.id !in Ids(rest) {
        assert [x] + (Ids(rest) + [p.id]) == ([x] + Ids(rest)) + [p.id];
      }
    }
  }

  /** Storing under any key keeps one entry per key. */
  lemma SetKeepsIdsUnique(ps: seq<Player>, p: Player)
    requires UniqueIds(ps)
    ensures UniqueIds(Set(ps, p))
  {
    SetKeepsPosition(ps, p);
    var ids := Ids(ps);
    if p.id !in ids {
      forall i, j | 0 <= i < j < |ids + [p.id]|
        ensures (ids + [p.id])[i] != (ids + [p.id])[j]
      {
        if j < |ids| {
          assert (ids + [p.id])[i] == ids[i] && (ids + [p.id])[j] == ids[j];
        } else {
          assert (ids + [p.id])[i] == ids[i];
        }
      }
    }
  }

  /** How `Ids` sees a list built from a first entry and the rest. */
  lemma IdsCons(x: Player, rest: seq<Player>)
    ensures ([x] + rest)[0] == x && ([x] + rest)[1..] == rest
    ensures Ids([x] + rest) == [x.id] + Ids(rest)
  {
    assert ([x] + rest)[1..] == rest;
  }

  /** One entry per key in a list built from a first entry and the rest. */
  lemma UniqueCons(x: Player, rest: seq<Player>)
    ensures UniqueIds([x] + rest) <==> x.id !in Ids(rest) && UniqueIds(rest)
  {
    IdsCons(x, rest);
    var ids := [x.id] + Ids(rest);
    if Distinct(ids) {
      forall i, j | 0 <= i < j < |rest|
        ensures Ids(rest)[i] != Ids(rest)[j]
      {
        assert ids[i + 1] == Ids(rest)[i] && ids[j + 1] == Ids(rest)[j];
      }
    }
    if x.id !in Ids(rest) && Distinct(Ids(rest)) {
      forall i, j | 0 <= i < j < |ids|
        ensures ids[i] != ids[j]
      {
        if i == 0 {
          assert ids[j] == Ids(rest)[j - 1];
        } else {
          assert ids[i] == Ids(rest)[i - 1] && ids[j] == Ids(rest)[j - 1];
        }
      }
    }
  }

  /** How `Set` walks a list built from a first entry and the rest. */
  lemma SetCons(x: Player, rest: seq<Player>, p: Player)
    ensures Set([x] + rest, p) == if x.id == p.id then [p] + rest else [x] + Set(rest, p)
  {
    assert ([x] + rest)[0] == x && ([x] + rest)[1..] == rest;
  }

  /** How `Get` sees a list built from a first entry and the rest. */
  lemma GetCons(x: Player, rest: seq<Player>)
    ensures forall id :: Get([x] + rest, id) == if x.id == id then Some(x) else Get(rest, id)
  {
    assert ([x] + rest)[1..] == rest;
  }

  /** `players.delete(id)`. */
  function Remove(ps: seq<Player>, id: SocketId): (r: seq<Player>)
    ensures Get(r, id) == None
    ensures forall other :: other != id ==> Get(r, other) == Get(ps, other)
    ensures forall q :: q in r <==> q in ps && q.id != id
    ensures Seqs.Subsequence(r, ps)
    ensures id !in Ids(ps) ==> r == ps
    decreases |ps|
  {
    if |ps| == 0 then []
    else
      var rest := Remove(ps[1..], id);
      GetCons(ps[0], ps[1..]);
      IdsCons(ps[0], ps[1..]);
      assert [ps[0]] + ps[1..] == ps;
      if ps[0].id == id then
        rest
      else
        GetCons(ps[0], rest);
        [ps[0]] + rest
  }

  /** Deleting a key keeps one entry per key and, when the key was present, drops exactly one entry. */
  lemma {:induction false} RemoveDropsOneEntry(ps: seq<Player>, id: SocketId)
    requires UniqueIds(ps)
    ensures UniqueIds(Remove(ps, id))
    ensures id in Ids(ps) ==> |Remove(ps, id)| == |ps| - 1
    decreases |ps|
  {
    if |ps| > 0 {
      var x, tail := ps[0], ps[1..];
      assert ps == [x] + tail;
      UniqueCons(x, tail);
      IdsCons(x, tail);
      RemoveDropsOneEntry(tail, id);
      var rest := Remove(tail, id);
      if x.id == id {
        assert Remove(ps, id) == rest;
      } else {
        assert Remove(ps, id) == [x] + rest;
        assert x.id !in Ids(rest) by {
          forall k | 0 <= k < |rest| ensures Ids(rest)[k] != x.id {
            assert rest[k] in tail;
            MemberIdListed(tail, rest[k]);
          }
        }
        UniqueCons(x, rest);
      }
    }
  }

  /** The key of every entry is among the listed keys. */
  lemma MemberIdListed(ps: seq<Player>, q: Player)
    requires q in ps
    ensures q.id in Ids(ps)
  {
    var k :| 0 <= k < |ps| && ps[k] == q;
    assert Ids(ps)[k] == q.id;
  }

  /** `Array.from(players.values()).every(p => p.isReady)`. */
  predicate AllReady(ps: seq<Player>) {
    forall i :: 0 <= i < |ps| ==> ps[i].isReady
  }

  /** `Array.from(players.values()).every(p => p.isFinished)`. */
  predicate AllFinished(ps: seq<Player>) {
    forall i :: 0 <= i < |ps| ==> ps[i].isFinished
  }

  // ---------------------------------------------------------------------------
  // The five handlers

  function JoinGame(s: Session, id: SocketId, name: string): (r: Step)
    ensures Get(r.session.players, id) == Some(Player(id, name, 0, false, false))
    ensures forall other :: other != id ==> Get(r.session.players, other) == Get(s.players, other)
    ensures Ids(r.session.players) == if id in Ids(s.players) then Ids(s.players) else Ids(s.players) + [id]
    ensures r.session.gameStarted == s.gameStarted
    ensures r.out == [Players(r.session.players)]
  {
    var players := Set(s.players, Player(id, name, 0, false, false));
    SetKeepsPosition(s.players, Player(id, name, 0, false, false));
    Step(s.(players := players), [Players(players)])
  }

  function PlayerReady(s: Session, id: SocketId): (r: Step)
    ensures Get(s.players, id).None? ==> r == Step(s, [])
    ensures Get(s.players, id).Some? ==>
      Get(r.session.players, id) == Some(Get(s.players, id).value.(isReady := true))
    ensures forall other :: other != id ==> Get(r.session.players, other) == Get(s.players, other)
    ensures Ids(r.session.players) == Ids(s.players)
  {
    GetFailsIffAbsent(s.players, id);
    match Get(s.players, id)
    case None => Step(s, [])
    case Some(p) =>
      var players := Set(s.players, p.(isReady := true));
      SetKeepsPosition(s.players, p.(isReady := true));
      var allReady := AllReady(players);
      Step(Session(players, s.gameStarted || allReady),
           [Players(players)] + (if allReady then [GameStart] else []))
  }

  /**
   * What `playerReady` broadcasts: the list first, then `gameStart` exactly
   * when every player is ready afterwards, which also sets the flag.
   */
  lemma ReadyBroadcasts(s: Session, id: SocketId)
    ensures var r := PlayerReady(s, id);
      && (id in Ids(s.players) ==> |r.out| > 0 && r.out[0] == Players(r.session.players))
      && (forall k :: 0 < k < |r.out| ==> r.out[k] == GameStart)
      && |r.out| <= 2
      && (GameStart in r.out <==> |r.session.players| > 0 && AllReady(r.session.players) && id in Ids(s.players))
      && r.session.gameStarted == (s.gameStarted || GameStart in r.out)
  {
    GetFailsIffAbsent(s.players, id);
    if id in Ids(s.players) {
      var p := Get(s.players, id).value;
      assert |Set(s.players, p.(isReady := true))| > 0 by {
        assert Get(Set(s.players, p.(isReady := true)), id).Some?;
      }
    }
  }

  function UpdateScore(s: Session, id: SocketId, score: int): (r: Step)
    ensures Get(s.players, id).None? ==> r == Step(s, [])
    ensures Get(s.players, id).Some? ==>
      Get(r.session.players, id) == Some(Get(s.players, id).value.(score := score))
    ensures forall other :: other != id ==> Get(r.session.players, other) == Get(s.players, other)
    ensures Ids(r.session.players) == Ids(s.players)
    ensures r.session.gameStarted == s.gameStarted
    ensures Get(s.players, id).Some? ==> r.out == [Players(r.session.players)]
  {
    match Get(s.players, id)
    case None => Step(s, [])
    case Some(p) =>
      var players := Set(s.players, p.(score := score));
      SetKeepsPosition(s.players, p.(score := score));
      Step(s.(players := players), [Players(players)])
  }

  function GameOver(s: Session, id: SocketId): (r: Step)
    ensures Get(s.players, id).None? ==> r == Step(s, [])
    ensures Get(s.players, id).Some? ==>
      Get(r.session.players, id) == Some(Get(s.players, id).value.(isFinished := true))
    ensures forall other :: other != id ==> Get(r.session.players, other) == Get(s.players, other)
    ensures Ids(r.session.players) == Ids(s.players)
  {
    GetFailsIffAbsent(s.players, id);
    match Get(s.players, id)
    case None => Step(s, [])
    case Some(p) =>
      var players := Set(s.players, p.(isFinished := true));
      SetKeepsPosition(s.players, p.(isFinished := true));
      var allDone := AllFinished(players);
      Step(Session(players, s.gameStarted && !allDone),
           [Players(players)] + (if allDone then [GameEnd(players)] else []))
  }

  /**
   * What `gameOver` broadcasts: the list first, then `gameEnd` with the full
   * list exactly when every player is finished afterwards, which also clears
   * the flag.
   */
  lemma FinishBroadcasts(s: Session, id: SocketId)
    ensures var r := GameOver(s, id);
      && (id in Ids(s.players) ==> |r.out| > 0 && r.out[0] == Players(r.session.players))
      && (forall k :: 0 < k < |r.out| ==> r.out[k] == GameEnd(r.session.players))
      && |r.out| <= 2
      && (GameEnd(r.session.players) in r.out <==> id in Ids(s.players) && AllFinished(r.session.players))
      && r.session.gameStarted == (s.gameStarted && GameEnd(r.session.players) !in r.out)
  {
    GetFailsIffAbsent(s.players, id);
  }

  function Disconnect(s: Session, id: SocketId): (r: Step)
    ensures Get(r.session.players, id) == None
    ensures forall other :: other != id ==> Get(r.session.players, other) == Get(s.players, other)
    ensures Seqs.Subsequence(r.session.players, s.players)
    ensures r.out == [Players(r.session.players)]
    ensures r.session.gameStarted == (s.gameStarted && |r.session.players| > 0)
  {
    var players := Remove(s.players, id);
    Step(Session(players, s.gameStarted && |players| > 0), [Players(players)])
  }

  /** Dispatches one socket event to its handler. */
  function Handle(s: Session, id: SocketId, e: Event): Step {
    match e
    case Join(name) => JoinGame(s, id, name)
    case Ready => PlayerReady(s, id)
    case Score(score) => UpdateScore(s, id, score)
    case Finished => GameOver(s, id)
    case Leave => Disconnect(s, id)
  }

  /** Processes events in arrival order, concatenating the broadcasts. */
  function Run(s: Session, trace: seq<(SocketId, Event)>): Step {
    Fold(Handle, s, trace)
  }

  /** Applies `step` to each event in turn, concatenating the broadcasts. */
  function Fold(step: (Session, SocketId, Event) -> Step, s: Session, trace: seq<(SocketId, Event)>): Step
    decreases |trace|
  {
    if |trace| == 0 then Step(s, [])
    else
      var first := step(s, trace[0].0, trace[0].1);
      var rest := Fold(step, first.session, trace[1..]);
      Step(rest.session, first.out + rest.out)
  }

  function CountStarts(out: seq<Message>): nat {
    if |out| == 0 then 0 else (if out[0] == GameStart then 1 else 0) + CountStarts(out[1..])
  }

  // ---------------------------------------------------------------------------
  // Properties

  /** Every handler keeps one entry per socket id. */
  lemma HandleKeepsIdsUnique(s: Session, id: SocketId, e: Event)
    requires UniqueIds(s.players)
    ensures UniqueIds(Handle(s, id, e).session.players)
  {
    match e
    case Join(name) => SetKeepsIdsUnique(s.players, Player(id, name, 0, false, false));
    case Leave => RemoveDropsOneEntry(s.players, id);
    case _ =>
  }

  /** Over any sequence of events the map never holds two entries for one socket. */
  lemma {:induction false} RunKeepsIdsUnique(s: Session, trace: seq<(SocketId, Event)>)
    requires UniqueIds(s.players)
    ensures UniqueIds(Run(s, trace).session.players)
    decreases |trace|
  {
    if |trace| > 0 {
      HandleKeepsIdsUnique(s, trace[0].0, trace[0].1);
      RunKeepsIdsUnique(Handle(s, trace[0].0, trace[0].1).session, trace[1..]);
    }
  }

  /**
   * Broadcast-after-mutation: whenever a handler changes the player list, its first
   * broadcast is the full new list, sent before any `gameStart` or `gameEnd`.
   */
  lemma ChangesAreBroadcastFirst(s: Session, id: SocketId, e: Event)
    ensures var r := Handle(s, id, e);
      r.session.players != s.players ==> |r.out| > 0 && r.out[0] == Players(r.session.players)
    ensures var r := Handle(s, id, e);
      forall k :: 0 <= k < |r.out| && r.out[k] != Players(r.session.players) ==> k > 0
  {
  }

  /** Storing a value that is already stored leaves the list as it is. */
  lemma {:induction false} SetSameIsIdentity(ps: seq<Player>, p: Player)
    requires Get(ps, p.id) == Some(p)
    ensures Set(ps, p) == ps
    decreases |ps|
  {
    if |ps| > 0 && ps[0].id != p.id {
      SetSameIsIdentity(ps[1..], p);
      assert [ps[0]] + ps[1..] == ps;
    } else if |ps| > 0 {
      assert [p] + ps[1..] == ps;
    }
  }

  /**
   * `gameStarted` guards nothing: a `playerReady` from a player who is already ready,
   * while everyone is ready, broadcasts the unchanged list and `gameStart` again.
   */
  lemma RepeatedReadyRestarts(s: Session, id: SocketId)
    requires Get(s.players, id).Some? && AllReady(s.players)
    ensures PlayerReady(s, id).session == s.(gameStarted := true)
    ensures PlayerReady(s, id).out == [Players(s.players), GameStart]
  {
    var p := Get(s.players, id).value;
    assert p.isReady by {
      var i :| 0 <= i < |s.players| && s.players[i] == p;
    }
    assert p.(isReady := true) == p;
    SetSameIsIdentity(s.players, p);
  }

  /**
   * The session flag does not follow readiness: after a start, a newcomer joins
   * unready while `gameStarted` stays true.
   */
  lemma StartedFlagOutlivesReadiness()
    ensures var s := PlayerReady(JoinGame(Initial, "a", "A").session, "a").session;
      var r := JoinGame(s, "b", "B").session;
      r.gameStarted && !AllReady(r.players)
  {
    var s0 := JoinGame(Initial, "a", "A").session;
    assert s0.players == [Player("a", "A", 0, false, false)];
    var s1 := PlayerReady(s0, "a").session;
    assert s1.players == [Player("a", "A", 0, true, false)];
    var r := JoinGame(s1, "b", "B").session;
    assert r.players[1] == Player("b", "B", 0, false, false);
  }

  lemma {:induction false} CountStartsAppend(a: seq<Message>, b: seq<Message>)
    ensures CountStarts(a + b) == CountStarts(a) + CountStarts(b)
    decreases |a|
  {
    if |a| == 0 {
      assert a + b == b;
    } else {
      assert (a + b)[0] == a[0] && (a + b)[1..] == a[1..] + b;
      CountStartsAppend(a[1..], b);
    }
  }

  /** The three joins of the scenario below, one handler call at a time. */
  lemma JoinThree(a: SocketId, b: SocketId, c: SocketId, na: string, nb: string, nc: string)
    requires a != b && a != c && b != c
    ensures var pa, pb, pc := Player(a, na, 0, false, false), Player(b, nb, 0, false, false), Player(c, nc, 0, false, false);
      && Handle(Initial, a, Join(na)) == Step(Session([pa], false), [Players([pa])])
      && Handle(Session([pa], false), b, Join(nb)) == Step(Session([pa, pb], false), [Players([pa, pb])])
      && Handle(Session([pa, pb], false), c, Join(nc)) == Step(Session([pa, pb, pc], false), [Players([pa, pb, pc])])
  {
    var pa, pb, pc := Player(a, na, 0, false, false), Player(b, nb, 0, false, false), Player(c, nc, 0, false, false);
    SetCons(pa, [], pb);
    assert [pa, pb] == [pa] + [pb];
    SetCons(pa, [pb], pc);
    SetCons(pb, [], pc);
    assert [pa, pb, pc] == [pa] + ([pb] + [pc]);
  }

  /** Lookups in a three-entry list with distinct keys. */
  lemma GetOfThree(x: Player, y: Player, z: Player)
    requires x.id != y.id && x.id != z.id && y.id != z.id
    ensures Get([x, y, z], x.id) == Some(x) && Get([x, y, z], y.id) == Some(y) && Get([x, y, z], z.id) == Some(z)
  {
    assert [x, y, z] == [x] + ([y] + [z]);
    GetCons(x, [y] + [z]);
    GetCons(y, [z]);
    GetCons(z, []);
  }

  /** Replacing the first entry of a three-entry list. */
  lemma SetFirstOfThree(x: Player, y: Player, z: Player, p: Player)
    requires p.id == x.id
    ensures Set([x, y, z], p) == [p, y, z]
  {
    assert [x, y, z] == [x] + ([y] + [z]);
    SetCons(x, [y] + [z], p);
  }

  /** Replacing the second entry of a three-entry list with distinct keys. */
  lemma SetSecondOfThree(x: Player, y: Player, z: Player, p: Player)
    requires x.id != y.id && p.id == y.id
    ensures Set([x, y, z], p) == [x, p, z]
  {
    assert [x, y, z] == [x] + ([y] + [z]);
    SetCons(x, [y] + [z], p);
    SetCons(y, [z], p);
  }

  /** Replacing the last entry of a three-entry list with distinct keys. */
  lemma SetThirdOfThree(x: Player, y: Player, z: Player, p: Player)
    requires x.id != z.id && y.id != z.id && p.id == z.id
    ensures Set([x, y, z], p) == [x, y, p]
  {
    assert [x, y, z] == [x] + ([y] + [z]);
    SetCons(z, [], p);
    assert Set([z], p) == [p];
    SetCons(y, [z], p);
    assert Set([y] + [z], p) == [y, p];
    SetCons(x, [y] + [z], p);
  }

  /** A `playerReady` from a known player, given the list its flag update produces. */
  lemma ReadyStep(s: Session, p: Player, updated: seq<Player>)
    requires Get(s.players, p.id) == Some(p) && Set(s.players, p.(isReady := true)) == updated
    ensures Handle(s, p.id, Ready)
      == Step(Session(updated, s.gameStarted || AllReady(updated)),
              [Players(updated)] + (if AllReady(updated) then [GameStart] else []))
  {
  }

  /** The first `playerReady` of the scenario: the list is broadcast, nothing starts. */
  lemma ReadyFirst(pa: Player, pb: Player, pc: Player)
    requires pa.id != pb.id && pa.id != pc.id && pb.id != pc.id && !pc.isReady
    ensures var ra := pa.(isReady := true);
      Handle(Session([pa, pb, pc], false), pa.id, Ready) == Step(Session([ra, pb, pc], false), [Players([ra, pb, pc])])
  {
    var ra := pa.(isReady := true);
    GetOfThree(pa, pb, pc);
    SetFirstOfThree(pa, pb, pc, ra);
    assert !AllReady([ra, pb, pc]) by { assert ![ra, pb, pc][2].isReady; }
    ReadyStep(Session([pa, pb, pc], false), pa, [ra, pb, pc]);
  }

  /** The second `playerReady` of the scenario: the list is broadcast, nothing starts. */
  lemma ReadySecond(ra: Player, pb: Player, pc: Player)
    requires ra.id != pb.id && ra.id != pc.id && pb.id != pc.id && !pc.isReady
    ensures var rb := pb.(isReady := true);
      Handle(Session([ra, pb, pc], false), pb.id, Ready) == Step(Session([ra, rb, pc], false), [Players([ra, rb, pc])])
  {
    var rb := pb.(isReady := true);
    GetOfThree(ra, pb, pc);
    SetSecondOfThree(ra, pb, pc, rb);
    assert !AllReady([ra, rb, pc]) by { assert ![ra, rb, pc][2].isReady; }
    ReadyStep(Session([ra, pb, pc], false), pb, [ra, rb, pc]);
  }

  /** The last `playerReady` of the scenario completes readiness and starts the game. */
  lemma ReadyLast(ra: Player, rb: Player, pc: Player)
    requires ra.id != rb.id && ra.id != pc.id && rb.id != pc.id && ra.isReady && rb.isReady
    ensures var rc := pc.(isReady := true);
      Handle(Session([ra, rb, pc], false), pc.id, Ready)
        == Step(Session([ra, rb, rc], true), [Players([ra, rb, rc]), GameStart])
  {
    var rc := pc.(isReady := true);
    GetOfThree(ra, rb, pc);
    SetThirdOfThree(ra, rb, pc, rc);
    assert AllReady([ra, rb, rc]);
    ReadyStep(Session([ra, rb, pc], false), pc, [ra, rb, rc]);
  }

  /** Running two traces back to back is running their concatenation. */
  lemma {:induction false} FoldAppend(step: (Session, SocketId, Event) -> Step, s: Session,
                                      t1: seq<(SocketId, Event)>, t2: seq<(SocketId, Event)>)
    ensures var r1 := Fold(step, s, t1); var r2 := Fold(step, r1.session, t2);
      Fold(step, s, t1 + t2) == Step(r2.session, r1.out + r2.out)
    decreases |t1|
  {
    if |t1| == 0 {
      assert t1 + t2 == t2;
    } else {
      var f := step(s, t1[0].0, t1[0].1);
      assert (t1 + t2)[0] == t1[0] && (t1 + t2)[1..] == t1[1..] + t2;
      FoldAppend(step, f.session, t1[1..], t2);
      var m := Fold(step, f.session, t1[1..]);
      var e := Fold(step, m.session, t2);
      assert f.out + (m.out + e.out) == (f.out + m.out) + e.out;
    }
  }

  /** A three-event trace is three steps, each from the session the previous one left. */
  lemma FoldThree(step: (Session, SocketId, Event) -> Step, s: Session,
                  e1: (SocketId, Event), e2: (SocketId, Event), e3: (SocketId, Event))
    ensures var r1 := step(s, e1.0, e1.1);
      var r2 := step(r1.session, e2.0, e2.1);
      var r3 := step(r2.session, e3.0, e3.1);
      Fold(step, s, [e1, e2, e3]) == Step(r3.session, r1.out + (r2.out + r3.out))
  {
    var r1 := step(s, e1.0, e1.1);
    var r2 := step(r1.session, e2.0, e2.1);
    assert [e1, e2, e3][1..] == [e2, e3] && [e2, e3][1..] == [e3] && [e3][1..] == [];
    assert Fold(step, r2.session, [e3]) == Step(step(r2.session, e3.0, e3.1).session, step(r2.session, e3.0, e3.1).out + []);
  }

  /** One broadcast per event, and none of them is `gameStart`, while three players join. */
  lemma ScenarioJoins(a: SocketId, b: SocketId, c: SocketId, na: string, nb: string, nc: string)
    requires a != b && a != c && b != c
    ensures var r := Run(Initial, [(a, Join(na)), (b, Join(nb)), (c, Join(nc))]);
      && r.session == Session([Player(a, na, 0, false, false), Player(b, nb, 0, false, false), Player(c, nc, 0, false, false)], false)
      && CountStarts(r.out) == 0
  {
    var pa, pb, pc := Player(a, na, 0, false, false), Player(b, nb, 0, false, false), Player(c, nc, 0, false, false);
    var s1, s2, s3 := Session([pa], false), Session([pa, pb], false), Session([pa, pb, pc], false);
    var e1, e2, e3 := (a, Join(na)), (b, Join(nb)), (c, Join(nc));
    var o1, o2, o3 := [Players(s1.players)], [Players(s2.players)], [Players(s3.players)];
    assert Run(Initial, [e1, e2, e3]) == Step(s3, o1 + (o2 + o3)) by {
      JoinThree(a, b, c, na, nb, nc);
      FoldThree(Handle, Initial, e1, e2, e3);
    }
    assert CountStarts(o1 + (o2 + o3)) == 0 by {
      CountStartsAppend(o2, o3);
      CountStartsAppend(o1, o2 + o3);
    }
  }

  /** Each of three joined players sends `playerReady`: only the last one starts the game. */
  lemma ScenarioReadies(pa: Player, pb: Player, pc: Player)
    requires pa.id != pb.id && pa.id != pc.id && pb.id != pc.id && !pa.isReady && !pb.isReady && !pc.isReady
    ensures CountStarts(Run(Session([pa, pb, pc], false), [(pa.id, Ready), (pb.id, Ready), (pc.id, Ready)]).out) == 1
  {
    var ra, rb, rc := pa.(isReady := true), pb.(isReady := true), pc.(isReady := true);
    var s3, s4, s5, s6 := Session([pa, pb, pc], false), Session([ra, pb, pc], false), Session([ra, rb, pc], false), Session([ra, rb, rc], true);
    var e4, e5, e6 := (pa.id, Ready), (pb.id, Ready), (pc.id, Ready);
    var o4, o5, o6 := [Players(s4.players)], [Players(s5.players)], [Players(s6.players), GameStart];
    assert Run(s3, [e4, e5, e6]).out == o4 + (o5 + o6) by {
      ReadyFirst(pa, pb, pc);
      ReadySecond(ra, pb, pc);
      ReadyLast(ra, rb, pc);
      FoldThree(Handle, s3, e4, e5, e6);
    }
    assert CountStarts(o4 + (o5 + o6)) == 1 by {
      CountStartsAppend(o5, o6);
      CountStartsAppend(o4, o5 + o6);
      assert o6[1..] == [GameStart];
      assert o6[1..][1..] == [];
    }
  }

  /**
   * Three players join and each sends `playerReady` once: exactly one `gameStart`
   * is broadcast, after the third.
   */
  lemma ThreeReadyPlayersStartOnce(a: SocketId, b: SocketId, c: SocketId, na: string, nb: string, nc: string)
    requires a != b && a != c && b != c
    ensures CountStarts(Run(Initial, [(a, Join(na)), (b, Join(nb)), (c, Join(nc)), (a, Ready), (b, Ready), (c, Ready)]).out) == 1
  {
    var joins := [(a, Join(na)), (b, Join(nb)), (c, Join(nc))];
    var readies := [(a, Ready), (b, Ready), (c, Ready)];
    assert joins + readies == [(a, Join(na)), (b, Join(nb)), (c, Join(nc)), (a, Ready), (b, Ready), (c, Ready)];
    ScenarioJoins(a, b, c, na, nb, nc);
    ScenarioReadies(Player(a, na, 0, false, false), Player(b, nb, 0, false, false), Player(c, nc, 0, false, false));
    FoldAppend(Handle, Initial, joins, readies);
    CountStartsAppend(Run(Initial, joins).out, Run(Run(Initial, joins).session, readies).out);
  }
}

=== FILE: flap_bird.dfy ===
/**
 * The bird of the multiplayer game: a box that falls under a constant
 * gravity with a capped downward velocity and flaps with a fixed impulse.
 * `update` is not gated by any flag here; the game loop decides when to call it.
 */
module FlapBird {
  import opened Reals

  const Gravity: real := 0.08
  const JumpForce: real := -2.5
  const MaxVelocity: real := 10.0

  datatype Bird = Bird(x: real, y: real, width: real, height: real, velocity: real)

  /** The component's input defaults. */
  const Initial: Bird := Bird(250.0, 300.0, 40.0, 30.0, 0.0)

  /** A flap replaces the velocity by the jump impulse; nothing else moves. */
  function Jump(b: Bird): (r: Bird)
    ensures r.velocity == JumpForce && r.velocity < 0.0
    ensures r.x == b.x && r.y == b.y && r.width == b.width && r.height == b.height
  {
    b.(velocity := JumpForce)
  }

  /** One frame: gravity, then the cap, then the move by the capped velocity. */
  function Update(b: Bird): (r: Bird)
    ensures r.velocity <= MaxVelocity
    ensures b.velocity + Gravity <= MaxVelocity ==> r.velocity == b.velocity + Gravity
    ensures b.velocity + Gravity > MaxVelocity ==> r.velocity == MaxVelocity
    ensures r.y - b.y == r.velocity
    ensures r.x == b.x && r.width == b.width && r.height == b.height
  {
    var v := Min(b.velocity + Gravity, MaxVelocity);
    b.(velocity := v, y := b.y + v)
  }

  /** Back to the start position, at rest; the size is kept. */
  function Reset(b: Bird): (r: Bird)
    ensures r.x == Initial.x && r.y == Initial.y && r.velocity == 0.0
    ensures r.width == b.width && r.height == b.height
  {
    b.(y := 300.0, velocity := 0.0, x := 250.0)
  }

  /** `n` frames in a row. */
  function UpdateN(b: Bird, n: nat): Bird {
    if n == 0 then b else Update(UpdateN(b, n - 1))
  }

  // ---------------------------------------------------------------------------
  // Properties

  /** A second flap in the same frame changes nothing. */
  lemma JumpIdempotent(b: Bird)
    ensures Jump(Jump(b)) == Jump(b)
  {
  }

  /** Resetting twice is resetting once, and a default-sized bird resets to the defaults. */
  lemma ResetIdempotent(b: Bird)
    ensures Reset(Reset(b)) == Reset(b)
    ensures b.width == Initial.width && b.height == Initial.height ==> Reset(b) == Initial
  {
  }

  /** After `n` frames the velocity is the starting one plus `n` gravity steps, capped once. */
  lemma {:induction false} VelocityAfterFrames(b: Bird, n: nat)
    requires b.velocity <= MaxVelocity
    ensures UpdateN(b, n).velocity == Min(b.velocity + (n as real) * Gravity, MaxVelocity)
    ensures UpdateN(b, n).x == b.x
  {
    if n > 0 {
      VelocityAfterFrames(b, n - 1);
      assert b.velocity + (n as real) * Gravity == b.velocity + ((n - 1) as real) * Gravity + Gravity;
    }
  }

  /** From rest, the bird reaches its terminal velocity after exactly 125 frames. */
  lemma TerminalVelocityFromRest(b: Bird, n: nat)
    requires b.velocity == 0.0
    ensures UpdateN(b, n).velocity == MaxVelocity <==> n >= 125
  {
    VelocityAfterFrames(b, n);
  }
}

=== FILE: reals.dfy ===
/** The `Math.min`, `Math.max` and `Math.abs` the games use, on reals. */
module Reals {
  function Min(a: real, b: real): real {
    if a <= b then a else b
  }

  function Max(a: real, b: real): real {
    if a >= b then a else b
  }

  function Abs(a: real): real {
    if a < 0.0 then -a else a
  }
}

=== FILE: seqs.dfy ===
/** Generic facts about sequences used by the list-filtering operations. */
module Seqs {

  /** `a` can be obtained from `b` by deleting elements, keeping the order of the rest. */
  ghost predicate Subsequence<T>(a: seq<T>, b: seq<T>)
    decreases |b|
  {
    if |a| == 0 then true
    else if |b| == 0 then false
    else (a[0] == b[0] && Subsequence(a[1..], b[1..])) || Subsequence(a, b[1..])
  }
}

=== FILE: solo.dfy ===
/**
 * The single-player game: one frame of the simulation (bird, ground and pipe
 * collisions, scoring, culling and spawning of pipes), the pause and restart
 * controls, and the high score kept in the browser's storage. The window size,
 * `Math.random()` and the stored high score are inputs.
 */
module Solo {
  import opened Wrappers
  import WingBird
  import Seqs
  import opened Reals

  const GameSpeed: real := 2.0
  const PipeSpacing: real := 300.0
  const PipeGap: real := 150.0
  const PipeWidth: real := 80.0
  const GroundHeight: real := 100.0
  const GroundGrassHeight: real := 20.0
  /** How close to a rim of the gap counts as hitting the pipe's cap. */
  const CapMargin: real := 5.0
  /** The lowest the top of a gap may start. */
  const MinGapY: real := 100.0
  /** The margin kept between the bottom of a gap and the grass. */
  const GapFloorMargin: real := 50.0

  datatype Pipe = Pipe(x: real, gapY: real, scored: bool)

  datatype Viewport = Viewport(width: real, height: real)

  datatype Game = Game(
    bird: WingBird.Bird,
    pipes: seq<Pipe>,
    isPaused: bool,
    hasGameStarted: bool,
    isGameOver: bool,
    score: int,
    highScore: int)

  /** The state after a frame or an input, with the value written to storage, if any. */
  datatype Tick = Tick(game: Game, stored: Option<int>)

  /** `this.pipes[this.pipes.length - 1].x` on an empty list. */
  datatype Fault = NoPipeLeft

  // ---------------------------------------------------------------------------
  // Gap placement

  /**
   * The greatest height a flap can lift the bird, `v² / 2g` for the jump
   * velocity `v`, kept at 80% so that it is reachable in play.
   */
  function MaxAchievableHeight(jumpForce: real, gravity: real): (r: real)
    requires gravity > 0.0
    ensures r >= 0.0
    ensures r * 2.0 * gravity == 0.8 * jumpForce * jumpForce
  {
    Abs(jumpForce * jumpForce) / (2.0 * gravity) * 0.8
  }

  /** The lowest a gap may start: far enough above the grass for the whole gap and a margin. */
  function MaxGapY(vp: Viewport): real {
    vp.height - GroundHeight - GroundGrassHeight - PipeGap - GapFloorMargin
  }

  /** The upper end of the gap band: never lower than a flap can reach from mid-screen. */
  function GapBandTop(vp: Viewport, jumpForce: real, gravity: real): real
    requires gravity > 0.0
  {
    Min(MaxGapY(vp), vp.height / 2.0 + MaxAchievableHeight(jumpForce, gravity) / 2.0)
  }

  /** `generatePipeGap`: a point of the band between `MinGapY` and the band top, drawn from `rand`. */
  function GeneratePipeGap(vp: Viewport, jumpForce: real, gravity: real, rand: real): (r: real)
    requires gravity > 0.0 && 0.0 <= rand < 1.0
    ensures var top := GapBandTop(vp, jumpForce, gravity);
      top > MinGapY ==> MinGapY <= r < top
    ensures var top := GapBandTop(vp, jumpForce, gravity);
      top <= MinGapY ==> top <= r <= MinGapY
  {
    Draw(MinGapY, GapBandTop(vp, jumpForce, gravity) - MinGapY, rand)
  }

  /** `rand * span + lo`: a point of the interval from `lo` spanning `span`, either way round. */
  function Draw(lo: real, span: real, rand: real): (r: real)
    requires 0.0 <= rand < 1.0
    ensures span > 0.0 ==> lo <= r < lo + span
    ensures span <= 0.0 ==> lo + span <= r <= lo
  {
    ScaleBelow(rand, span);
    rand * span + lo
  }

  /** `rand * d` for `rand` in [0, 1) lies between 0 and `d`, strictly short of a positive `d`. */
  lemma ScaleBelow(rand: real, d: real)
    requires 0.0 <= rand < 1.0
    ensures d > 0.0 ==> 0.0 <= rand * d < d
    ensures d <= 0.0 ==> d <= rand * d <= 0.0
  {
    if d > 0.0 {
      assert rand * d < 1.0 * d;
    } else {
      assert rand * (-d) <= 1.0 * (-d);
    }
  }

  /** The first pipe's gap as line 143 of the game computes it, with its own formula. */
  function InitialGapY(vp: Viewport, rand: real): (r: real)
    requires 0.0 <= rand < 1.0
    ensures MaxGapY(vp) >= 0.0 ==> MinGapY <= r <= MinGapY + MaxGapY(vp)
    ensures MaxGapY(vp) > 0.0 ==> r < MinGapY + MaxGapY(vp)
  {
    Draw(MinGapY, MaxGapY(vp), rand)
  }

  // ---------------------------------------------------------------------------
  // Collisions

  /** Horizontal overlap between the bird and a pipe, strict on both sides. */
  predicate Abreast(b: WingBird.Bird, p: Pipe) {
    b.x + b.width > p.x && b.x < p.x + PipeWidth
  }

  /**
   * A pipe hit: abreast of the pipe and above the gap, below it, or within
   * the cap margin of either rim.
   */
  predicate PipeCollides(b: WingBird.Bird, p: Pipe) {
    && Abreast(b, p)
    && (|| b.y < p.gapY
        || b.y + b.height > p.gapY + PipeGap
        || Abs(b.y - p.gapY) < CapMargin
        || Abs(b.y + b.height - (p.gapY + PipeGap)) < CapMargin)
  }

  /** The loop over the pipes: does any of them stop the bird? */
  function AnyPipeHit(b: WingBird.Bird, ps: seq<Pipe>): (r: bool)
    ensures r <==> exists i :: 0 <= i < |ps| && PipeCollides(b, ps[i])
  {
    if |ps| == 0 then false
    else if PipeCollides(b, ps[0]) then true
    else
      var rest := AnyPipeHit(b, ps[1..]);
      assert forall i :: 1 <= i < |ps| ==> ps[i] == ps[1..][i - 1];
      rest
  }

  predicate OnGround(b: WingBird.Bird, vp: Viewport) {
    b.y + b.height >= vp.height - GroundHeight
  }

  // ---------------------------------------------------------------------------
  // Moving, scoring, culling and spawning

  predicate Scores(p: Pipe, birdX: real) {
    !p.scored && p.x - GameSpeed + PipeWidth < birdX
  }

  /** How many pipes score in this frame, counted from the back of the list. */
  function NewlyScored(ps: seq<Pipe>, birdX: real): nat {
    if |ps| == 0 then 0
    else NewlyScored(ps[..|ps| - 1], birdX) + (if Scores(ps[|ps| - 1], birdX) then 1 else 0)
  }

  lemma {:induction false} NewlyScoredCons(ps: seq<Pipe>, birdX: real)
    requires |ps| > 0
    ensures NewlyScored(ps, birdX) == (if Scores(ps[0], birdX) then 1 else 0) + NewlyScored(ps[1..], birdX)
    decreases |ps|
  {
    if |ps| > 1 {
      var init := ps[..|ps| - 1];
      NewlyScoredCons(init, birdX);
      assert init[0] == ps[0];
      assert init[1..] == ps[1..][..|ps[1..]| - 1];
      assert ps[1..][|ps[1..]| - 1] == ps[|ps| - 1];
    } else {
      assert ps[1..] == [];
      assert ps[..|ps| - 1] == [];
    }
  }

  datatype Moved = Moved(pipes: seq<Pipe>, score: int)

  /**
   * The `forEach` over the pipes: each moves left by the game speed, and one
   * now wholly behind the bird that has not scored adds a point and is flagged.
   */
  function MoveAndScore(ps: seq<Pipe>, birdX: real, score: int): (r: Moved)
    ensures |r.pipes| == |ps|
    ensures forall i :: 0 <= i < |ps| ==> r.pipes[i].x == ps[i].x - GameSpeed && r.pipes[i].gapY == ps[i].gapY
    ensures forall i :: 0 <= i < |ps| ==> (r.pipes[i].scored <==> ps[i].scored || Scores(ps[i], birdX))
    ensures r.score == score + NewlyScored(ps, birdX)
    decreases |ps|
  {
    if |ps| == 0 then Moved([], score)
    else
      var p := ps[0];
      var x := p.x - GameSpeed;
      var now := if Scores(p, birdX) then score + 1 else score;
      var rest := MoveAndScore(ps[1..], birdX, now);
      NewlyScoredCons(ps, birdX);
      Moved([Pipe(x, p.gapY, p.scored || Scores(p, birdX))] + rest.pipes, rest.score)
  }

  predicate Visible(p: Pipe) {
    p.x > -PipeWidth
  }

  /** `pipes.filter(pipe => pipe.x > -PIPE_WIDTH)`. */
  function Cull(ps: seq<Pipe>): (r: seq<Pipe>)
    ensures forall q :: q in r <==> q in ps && Visible(q)
    ensures |r| <= |ps|
    ensures |ps| > 0 && Visible(ps[|ps| - 1]) ==> |r| > 0 && r[|r| - 1] == ps[|ps| - 1]
  {
    if |ps| == 0 then []
    else if Visible(ps[0]) then [ps[0]] + Cull(ps[1..])
    else Cull(ps[1..])
  }

  // ---------------------------------------------------------------------------
  // Game lifecycle

  /** `endGame`: over and paused; the high score is raised, and stored, only when beaten. */
  function EndGame(g: Game): (r: Tick)
    ensures r.game.isGameOver && r.game.isPaused
    ensures r.game.highScore >= g.highScore && r.game.highScore >= g.score
    ensures r.game.highScore == g.highScore || r.game.highScore == g.score
    ensures r.stored.Some? <==> g.score > g.highScore
    ensures r.stored.Some? ==> r.stored.value == r.game.highScore
    ensures r.game.(isGameOver := g.isGameOver, isPaused := g.isPaused, highScore := g.highScore) == g
  {
    var h := if g.score > g.highScore then g.score else g.highScore;
    Tick(g.(isGameOver := true, isPaused := true, highScore := h),
         if g.score > g.highScore then Some(g.score) else None)
  }

  /** The high score read back from storage at start-up. */
  function LoadHighScore(saved: Option<int>): int {
    if saved.Some? then saved.value else 0
  }

  /**
   * The window's set-up: the bird a quarter across and half down, one pipe at
   * the right edge whose gap uses the start-up formula, not `generatePipeGap`.
   */
  function Init(vp: Viewport, saved: Option<int>, rand: real): (r: Game)
    requires 0.0 <= rand < 1.0
    ensures |r.pipes| == 1 && r.pipes[0].x == vp.width && !r.pipes[0].scored
    ensures r.pipes[0].gapY == InitialGapY(vp, rand)
    ensures !r.isPaused && !r.hasGameStarted && !r.isGameOver && r.score == 0
    ensures r.highScore == LoadHighScore(saved)
    ensures r.bird.x == vp.width / 4.0 && r.bird.y == vp.height / 2.0 && r.bird.velocity == 0.0
    ensures r.bird.gravity == 0.07 && r.bird.jumpForce == -2.5 && !r.bird.hasStarted
    ensures r.bird.width == 58.0 && r.bird.height == 45.0 && !r.bird.isPaused
    ensures r.bird.wingAngle == 0.0 && r.bird.wingDirection == 1
  {
    var bird := WingBird.Initial.(x := vp.width / 4.0, y := vp.height / 2.0, width := 58.0, height := 45.0,
                                  gravity := 0.07, jumpForce := -2.5);
    Game(bird, [Pipe(vp.width, InitialGapY(vp, rand), false)], false, false, false, 0, LoadHighScore(saved))
  }

  /** `resetGame`: a fresh run, the bird back at mid-height and at rest, one new pipe at the right edge. */
  function ResetGame(g: Game, vp: Viewport, rand: real): (r: Game)
    requires g.bird.gravity > 0.0 && 0.0 <= rand < 1.0
    ensures !r.isGameOver && !r.isPaused && !r.hasGameStarted && r.score == 0
    ensures |r.pipes| == 1 && r.pipes[0].x == vp.width && !r.pipes[0].scored
    ensures r.pipes[0].gapY == GeneratePipeGap(vp, g.bird.jumpForce, g.bird.gravity, rand)
    ensures r.bird == WingBird.Reset(g.bird.(y := vp.height / 2.0))
    ensures r.highScore == g.highScore
  {
    Game(WingBird.Reset(g.bird.(y := vp.height / 2.0)),
         [Pipe(vp.width, GeneratePipeGap(vp, g.bird.jumpForce, g.bird.gravity, rand), false)],
         false, false, false, 0, g.highScore)
  }

  /** Whether the pipes move and collide this frame. */
  predicate InPlay(g: Game) {
    g.hasGameStarted && !g.isPaused && !g.isGameOver
  }

  /**
   * The pipe stage of `update`: move and score, drop the pipes that left the
   * screen, then spawn if the last pipe is far enough from the right edge.
   * Reading the last pipe of an empty list is the fault.
   */
  function Advance(g: Game, vp: Viewport, rand: real): (r: Result<Game, Fault>)
    requires g.bird.gravity > 0.0 && 0.0 <= rand < 1.0
    ensures r.Ok? <==> exists i :: 0 <= i < |g.pipes| && Visible(g.pipes[i].(x := g.pipes[i].x - GameSpeed))
    ensures r.Ok? ==> r.value.score == g.score + NewlyScored(g.pipes, g.bird.x)
    ensures r.Ok? ==> forall q :: q in r.value.pipes ==> Visible(q) || q.x == vp.width
    ensures r.Ok? ==> r.value.(pipes := g.pipes, score := g.score) == g
    ensures r.Ok? ==> var kept := Cull(MoveAndScore(g.pipes, g.bird.x, g.score).pipes);
      |kept| > 0 && r.value.pipes == SpawnIfDue(kept, vp, GeneratePipeGap(vp, g.bird.jumpForce, g.bird.gravity, rand))
  {
    var moved := MoveAndScore(g.pipes, g.bird.x, g.score);
    var kept := Cull(moved.pipes);
    if |kept| == 0 then
      assert forall i :: 0 <= i < |g.pipes| ==> !Visible(moved.pipes[i]);
      Err(NoPipeLeft)
    else
      assert exists i :: 0 <= i < |g.pipes| && Visible(g.pipes[i].(x := g.pipes[i].x - GameSpeed)) by {
        var q := kept[0];
        assert q in moved.pipes;
        var i :| 0 <= i < |moved.pipes| && moved.pipes[i] == q;
        assert Visible(g.pipes[i].(x := g.pipes[i].x - GameSpeed));
      }
      var pipes := SpawnIfDue(kept, vp, GeneratePipeGap(vp, g.bird.jumpForce, g.bird.gravity, rand));
      Ok(g.(pipes := pipes, score := moved.score))
  }

  /**
   * The spawn test: a new unscored pipe at the right edge once the last pipe
   * is more than a spacing away from it. Afterwards the last pipe is within a
   * spacing of the edge, and a spaced list stays spaced.
   */
  function SpawnIfDue(ps: seq<Pipe>, vp: Viewport, gapY: real): (r: seq<Pipe>)
    requires |ps| > 0
    ensures |r| > 0 && r[|r| - 1].x >= vp.width - PipeSpacing
    ensures |ps| <= |r| <= |ps| + 1 && r[..|ps|] == ps
    ensures |r| == |ps| + 1 <==> ps[|ps| - 1].x < vp.width - PipeSpacing
    ensures |r| == |ps| + 1 ==> r[|ps|] == Pipe(vp.width, gapY, false)
    ensures forall q :: q in r ==> q in ps || q == Pipe(vp.width, gapY, false)
    ensures Spaced(ps) ==> Spaced(r)
  {
    if ps[|ps| - 1].x < vp.width - PipeSpacing then
      var spawn := Pipe(vp.width, gapY, false);
      SpawnKeepsSpacing(ps, spawn);
      ps + [spawn]
    else ps
  }

  /**
   * `update`: the bird's frame; then the ground, which ends the game even
   * before the first flap; then the pipes, only while in play.
   */
  function Update(g: Game, vp: Viewport, rand: real): (r: Result<Tick, Fault>)
    requires g.bird.gravity > 0.0 && 0.0 <= rand < 1.0
    ensures var b := WingBird.Update(g.bird.(isPaused := g.isPaused));
      OnGround(b, vp) ==> r == Ok(EndGame(g.(bird := b)))
    ensures var b := WingBird.Update(g.bird.(isPaused := g.isPaused));
      !OnGround(b, vp) && InPlay(g) && AnyPipeHit(b, g.pipes) ==> r == Ok(EndGame(g.(bird := b)))
    ensures var b := WingBird.Update(g.bird.(isPaused := g.isPaused));
      !OnGround(b, vp) && !InPlay(g) ==> r == Ok(Tick(g.(bird := b), None))
    ensures var b := WingBird.Update(g.bird.(isPaused := g.isPaused));
      !OnGround(b, vp) && InPlay(g) && !AnyPipeHit(b, g.pipes) ==>
        && (r.Ok? <==> Advance(g.(bird := b), vp, rand).Ok?)
        && (r.Ok? ==> r.value == Tick(Advance(g.(bird := b), vp, rand).value, None))
    ensures r.Err? ==> InPlay(g)
    ensures r.Ok? ==> r.value.game.score >= g.score
  {
    var b := WingBird.Update(g.bird.(isPaused := g.isPaused));
    var g1 := g.(bird := b);
    if OnGround(b, vp) then Ok(EndGame(g1))
    else if InPlay(g) && AnyPipeHit(b, g.pipes) then Ok(EndGame(g1))
    else if InPlay(g) then
      match Advance(g1, vp, rand)
      case Err(f) => Err(f)
      case Ok(h) => Ok(Tick(h, None))
    else Ok(Tick(g1, None))
  }

  /** One animation frame: nothing at all happens while paused. */
  function GameLoop(g: Game, vp: Viewport, rand: real): (r: Result<Tick, Fault>)
    requires g.bird.gravity > 0.0 && 0.0 <= rand < 1.0
    ensures g.isPaused ==> r == Ok(Tick(g, None))
    ensures !g.isPaused ==> r == Update(g, vp, rand)
  {
    if g.isPaused then Ok(Tick(g, None)) else Update(g, vp, rand)
  }

  /** Escape restarts a game that is over and otherwise toggles the pause; other keys do nothing. */
  function OnKeyDown(g: Game, key: string, vp: Viewport, rand: real): (r: Game)
    requires g.bird.gravity > 0.0 && 0.0 <= rand < 1.0
    ensures key != "Escape" ==> r == g
    ensures key == "Escape" && g.isGameOver ==> r == ResetGame(g, vp, rand)
    ensures key == "Escape" && !g.isGameOver ==> r == g.(isPaused := !g.isPaused)
  {
    if key == "Escape" then
      if g.isGameOver then ResetGame(g, vp, rand) else g.(isPaused := !g.isPaused)
    else g
  }

  /** The left button flaps, in any state; the first flap of a run starts it. */
  function OnMouseUp(g: Game, button: int): (r: Game)
    ensures button != 0 ==> r == g
    ensures button == 0 ==> r.bird == WingBird.PerformJump(g.bird).bird
    ensures button == 0 ==> (r.hasGameStarted <==> g.hasGameStarted || !g.bird.hasStarted)
    ensures r.(bird := g.bird, hasGameStarted := g.hasGameStarted) == g
  {
    if button == 0 then
      var j := WingBird.PerformJump(g.bird);
      g.(bird := j.bird, hasGameStarted := g.hasGameStarted || j.gameStart)
    else g
  }

  /** The restart button, drawn centred below mid-height whenever the game is paused. */
  predicate OnRestartButton(vp: Viewport, cx: real, cy: real) {
    var left := vp.width / 2.0 - 100.0;
    var top := vp.height / 2.0 + 80.0;
    left <= cx <= left + 200.0 && top <= cy <= top + 50.0
  }

  /** A click on the restart button while paused restarts; other clicks do nothing. */
  function OnClick(g: Game, vp: Viewport, cx: real, cy: real, rand: real): (r: Game)
    requires g.bird.gravity > 0.0 && 0.0 <= rand < 1.0
    ensures g.isPaused && OnRestartButton(vp, cx, cy) ==> r == ResetGame(g, vp, rand)
    ensures !(g.isPaused && OnRestartButton(vp, cx, cy)) ==> r == g
  {
    if g.isPaused && OnRestartButton(vp, cx, cy) then ResetGame(g, vp, rand) else g
  }

  // ---------------------------------------------------------------------------
  // Properties

  /** With the game's own physics the flap reaches 250/7 units. */
  lemma SoloFlapHeight()
    ensures MaxAchievableHeight(-2.5, 0.07) == 250.0 / 7.0
  {
  }

  /**
   * On a window taller than 420 units the band is the right way up, and every
   * gap it yields ends at least 50 units above the grass.
   */
  lemma GapClearsGround(vp: Viewport, rand: real)
    requires vp.height > 420.0 && 0.0 <= rand < 1.0
    ensures var y := GeneratePipeGap(vp, -2.5, 0.07, rand);
      MinGapY <= y && y + PipeGap < vp.height - GroundHeight - GroundGrassHeight - GapFloorMargin
  {
    assert MaxAchievableHeight(-2.5, 0.07) == 250.0 / 7.0;
  }

  /**
   * The first pipe's formula offsets the band by `MinGapY` without shrinking
   * it, so on an 800-unit window a draw of 0.99 puts the first gap of a new
   * game below the band, reaching 25 units into the ground.
   */
  lemma InitialGapSinksIntoGround(saved: Option<int>)
    ensures var vp := Viewport(1280.0, 800.0);
      var y := Init(vp, saved, 0.99).pipes[0].gapY;
      && y == 575.2
      && y > GapBandTop(vp, -2.5, 0.07)
      && y + PipeGap > vp.height - GroundHeight
  {
    var vp := Viewport(1280.0, 800.0);
    assert InitialGapY(vp, 0.99) == 575.2;
    assert MaxAchievableHeight(-2.5, 0.07) == 250.0 / 7.0;
  }

  /** Escape twice while the game is not over changes nothing. */
  lemma PauseToggleTwice(g: Game, vp: Viewport, rand: real)
    requires g.bird.gravity > 0.0 && 0.0 <= rand < 1.0 && !g.isGameOver
    ensures OnKeyDown(OnKeyDown(g, "Escape", vp, rand), "Escape", vp, rand) == g
  {
  }

  /** A bird wholly inside a gap, clear of both rims by the cap margin, passes the pipe. */
  lemma ClearPassage(b: WingBird.Bird, p: Pipe)
    requires b.y >= p.gapY + CapMargin && b.y + b.height <= p.gapY + PipeGap - CapMargin
    ensures !PipeCollides(b, p)
  {
  }

  /** Inside the gap but within the cap margin of its upper rim is still a hit. */
  lemma CapHitInsideGap(b: WingBird.Bird, p: Pipe)
    requires Abreast(b, p) && p.gapY <= b.y < p.gapY + CapMargin && b.y + b.height <= p.gapY + PipeGap
    ensures PipeCollides(b, p)
  {
  }

  /** The ground ends the game even before the first flap. */
  lemma GroundEndsUnstartedGame(g: Game, vp: Viewport, rand: real)
    requires g.bird.gravity > 0.0 && 0.0 <= rand < 1.0 && !g.hasGameStarted && !g.bird.hasStarted
    requires g.bird.y + g.bird.height >= vp.height - GroundHeight
    ensures Update(g, vp, rand).Ok? && Update(g, vp, rand).value.game.isGameOver
  {
    assert OnGround(WingBird.Update(g.bird.(isPaused := g.isPaused)), vp);
  }

  /** A pipe that has scored adds nothing when it moves again. */
  lemma {:induction false} ScoredPipesStayScored(ps: seq<Pipe>, birdX: real)
    requires forall i :: 0 <= i < |ps| ==> ps[i].scored
    ensures NewlyScored(ps, birdX) == 0
  {
    if |ps| > 0 {
      ScoredPipesStayScored(ps[..|ps| - 1], birdX);
    }
  }

  /**
   * The stored high score always reads back as the high score in play: if
   * storage held `saved` and the game loaded it, then after `endGame` the
   * storage (rewritten or not) loads back as the new high score.
   */
  lemma HighScoreRoundTrip(g: Game, saved: Option<int>)
    requires g.highScore == LoadHighScore(saved)
    ensures var r := EndGame(g);
      LoadHighScore(if r.stored.Some? then r.stored else saved) == r.game.highScore
  {
  }

  /**
   * The flags agree with each other: a game that is over is paused, and the
   * game counts as started exactly when the bird does.
   */
  ghost predicate Consistent(g: Game) {
    && (g.isGameOver ==> g.isPaused)
    && (g.hasGameStarted <==> g.bird.hasStarted)
    && g.bird.gravity > 0.0
  }

  /** A new game starts with consistent flags and with the pipe invariant in place. */
  lemma InitEstablishesInvariants(vp: Viewport, saved: Option<int>, rand: real)
    requires 0.0 <= rand < 1.0
    ensures Consistent(Init(vp, saved, rand))
    ensures PipesInv(Init(vp, saved, rand), vp)
  {
  }

  /** Every input and every frame that does not fault keeps the flags consistent. */
  lemma ControlsKeepConsistent(g: Game, vp: Viewport, rand: real, key: string, button: int, cx: real, cy: real)
    requires Consistent(g) && 0.0 <= rand < 1.0
    ensures Consistent(OnKeyDown(g, key, vp, rand))
    ensures Consistent(OnMouseUp(g, button))
    ensures Consistent(OnClick(g, vp, cx, cy, rand))
    ensures GameLoop(g, vp, rand).Ok? ==> Consistent(GameLoop(g, vp, rand).value.game)
  {
    if !g.isPaused {
      var b := WingBird.Update(g.bird.(isPaused := g.isPaused));
      assert b.hasStarted == g.bird.hasStarted && b.gravity == g.bird.gravity;
      if !OnGround(b, vp) && InPlay(g) && !AnyPipeHit(b, g.pipes) {
        var r := Advance(g.(bird := b), vp, rand);
        if r.Ok? {
          assert r.value.bird == b;
        }
      }
    }
  }

  /** A game that is over stays exactly as it is, frame after frame, until a restart. */
  lemma OverIsFrozen(g: Game, vp: Viewport, rand: real)
    requires Consistent(g) && g.isGameOver && 0.0 <= rand < 1.0
    ensures GameLoop(g, vp, rand) == Ok(Tick(g, None))
  {
  }

  // ---------------------------------------------------------------------------
  // The pipe invariant, for a window whose width does not change

  /** Pipes are left to right, at least a spacing apart. */
  ghost predicate Spaced(ps: seq<Pipe>) {
    forall i, j :: 0 <= i < j < |ps| ==> ps[i].x + PipeSpacing < ps[j].x
  }

  /**
   * What keeps the list from running dry: it is never empty, its last pipe is
   * no more than a spacing from the right edge, and the pipes are spaced.
   */
  ghost predicate PipesInv(g: Game, vp: Viewport) {
    && |g.pipes| > 0
    && g.pipes[|g.pipes| - 1].x >= vp.width - PipeSpacing
    && Spaced(g.pipes)
    && g.bird.gravity > 0.0
  }

  lemma {:induction false} CullKeepsSpacing(ps: seq<Pipe>)
    requires Spaced(ps)
    ensures Spaced(Cull(ps))
    decreases |ps|
  {
    if |ps| > 0 {
      CullKeepsSpacing(ps[1..]);
      var rest := Cull(ps[1..]);
      if Visible(ps[0]) {
        forall j | 0 <= j < |rest| ensures ps[0].x + PipeSpacing < rest[j].x {
          assert rest[j] in ps[1..];
        }
        assert Cull(ps) == [ps[0]] + rest;
      }
    }
  }

  /** The kept pipes are in their original order. */
  lemma {:induction false} CullKeepsOrder(ps: seq<Pipe>)
    ensures Seqs.Subsequence(Cull(ps), ps)
    decreases |ps|
  {
    if |ps| > 0 {
      CullKeepsOrder(ps[1..]);
      if Visible(ps[0]) {
        assert Cull(ps)[1..] == Cull(ps[1..]);
      }
    }
  }

  /**
   * On a window wider than 222 units a frame in play never faults and keeps
   * the pipe invariant: the last pipe is at most 302 units from the right edge
   * after its move, so it is still on screen when the list is read.
   */
  lemma AdvanceKeepsPipes(g: Game, vp: Viewport, rand: real)
    requires PipesInv(g, vp) && vp.width > 222.0 && 0.0 <= rand < 1.0
    ensures Advance(g, vp, rand).Ok?
    ensures PipesInv(Advance(g, vp, rand).value, vp)
  {
    var moved := MoveAndScore(g.pipes, g.bird.x, g.score);
    var n := |g.pipes|;
    assert Visible(moved.pipes[n - 1]);
    MoveKeepsSpacing(g.pipes, g.bird.x, g.score);
    CullKeepsSpacing(moved.pipes);
  }

  lemma MoveKeepsSpacing(ps: seq<Pipe>, birdX: real, score: int)
    requires Spaced(ps)
    ensures Spaced(MoveAndScore(ps, birdX, score).pipes)
  {
  }

  /** A pipe more than a spacing right of the last one keeps the list spaced. */
  lemma SpawnKeepsSpacing(ps: seq<Pipe>, p: Pipe)
    requires |ps| > 0 && ps[|ps| - 1].x + PipeSpacing < p.x
    ensures Spaced(ps) ==> Spaced(ps + [p])
  {
    if Spaced(ps) {
      var r := ps + [p];
      forall i, j | 0 <= i < j < |r| ensures r[i].x + PipeSpacing < r[j].x {
        if j == |ps| && i < |ps| - 1 {
          assert ps[i].x + PipeSpacing < ps[|ps| - 1].x;
        }
      }
    }
  }

  /** Every frame, on a window wider than 222 units, keeps the pipe invariant and never faults. */
  lemma UpdateKeepsPipes(g: Game, vp: Viewport, rand: real)
    requires PipesInv(g, vp) && vp.width > 222.0 && 0.0 <= rand < 1.0
    ensures Update(g, vp, rand).Ok?
    ensures PipesInv(Update(g, vp, rand).value.game, vp)
  {
    var b := WingBird.Update(g.bird.(isPaused := g.isPaused));
    var g1 := g.(bird := b);
    if !OnGround(b, vp) && InPlay(g) && !AnyPipeHit(b, g.pipes) {
      AdvanceKeepsPipes(g1, vp, rand);
    }
  }

  /**
   * On a window 200 units wide the single pipe leaves the screen before the
   * spawn test fires, and the next frame reads an empty list.
   */
  lemma NarrowWindowFaults(g: Game)
    requires InPlay(g) && g.bird.gravity > 0.0
    requires g.pipes == [Pipe(-78.0, 200.0, true)]
    ensures Advance(g, Viewport(200.0, 800.0), 0.5) == Err(NoPipeLeft)
  {
    var moved := MoveAndScore(g.pipes, g.bird.x, g.score);
    assert moved.pipes[0].x == -80.0;
    assert Cull(moved.pipes) == [];
  }
}

=== FILE: standings.dfy ===
/**
 * The results table of the multiplayer game: a copy of the player list sorted
 * by score, highest first. The sort is stable (as `Array.prototype.sort` is),
 * so players with equal scores keep their order in the list.
 */
module Standings {
  import Coordinator

  type Player = Coordinator.Player

  /** Highest score first. */
  ghost predicate SortedByScore(ps: seq<Player>) {
    forall i, j :: 0 <= i < j < |ps| ==> ps[i].score >= ps[j].score
  }

  /** The players with score `k`, in list order. */
  function WithScore(ps: seq<Player>, k: int): seq<Player> {
    if |ps| == 0 then []
    else (if ps[0].score == k then [ps[0]] else []) + WithScore(ps[1..], k)
  }

  /**
   * Puts `p` in front of the first player whose score is not higher, so that
   * `p` stays ahead of the later players it ties with.
   */
  function Insert(p: Player, ps: seq<Player>): (r: seq<Player>)
    ensures multiset(r) == multiset(ps) + multiset{p}
    ensures |r| == |ps| + 1
  {
    if |ps| == 0 || ps[0].score <= p.score then [p] + ps
    else
      assert ps == [ps[0]] + ps[1..];
      [ps[0]] + Insert(p, ps[1..])
  }

  /** Inserting into a sorted list keeps it sorted. */
  lemma {:induction false} InsertKeepsSorted(p: Player, ps: seq<Player>)
    requires SortedByScore(ps)
    ensures SortedByScore(Insert(p, ps))
    decreases |ps|
  {
    if |ps| == 0 || ps[0].score <= p.score {
      SortedCons(p, ps);
    } else {
      InsertKeepsSorted(p, ps[1..]);
      InsertBounded(p, ps[1..], ps[0].score);
      SortedCons(ps[0], Insert(p, ps[1..]));
    }
  }

  /** A bound on every score survives an insertion that respects it. */
  lemma {:induction false} InsertBounded(p: Player, ps: seq<Player>, bound: int)
    requires SortedByScore(ps) && p.score <= bound
    requires forall i :: 0 <= i < |ps| ==> ps[i].score <= bound
    ensures forall i :: 0 <= i < |Insert(p, ps)| ==> Insert(p, ps)[i].score <= bound
    decreases |ps|
  {
    if !(|ps| == 0 || ps[0].score <= p.score) {
      InsertBounded(p, ps[1..], bound);
    }
  }

  /** A sorted list stays sorted behind a player who scores at least as much as all of it. */
  lemma SortedCons(x: Player, rest: seq<Player>)
    requires SortedByScore(rest)
    requires forall i :: 0 <= i < |rest| ==> rest[i].score <= x.score
    ensures SortedByScore([x] + rest)
  {
    var r := [x] + rest;
    forall i, j | 0 <= i < j < |r| ensures r[i].score >= r[j].score {
      assert r[j] == rest[j - 1];
      if i > 0 {
        assert r[i] == rest[i - 1];
      }
    }
  }

  /** `[...players].sort((a, b) => b.score - a.score)`. */
  function GetSortedPlayers(ps: seq<Player>): (r: seq<Player>)
    ensures SortedByScore(r)
    ensures multiset(r) == multiset(ps)
  {
    if |ps| == 0 then []
    else
      assert ps == [ps[0]] + ps[1..];
      var rest := GetSortedPlayers(ps[1..]);
      InsertKeepsSorted(ps[0], rest);
      Insert(ps[0], rest)
  }

  // ---------------------------------------------------------------------------
  // Stability

  lemma WithScoreCons(x: Player, rest: seq<Player>, k: int)
    ensures WithScore([x] + rest, k) == (if x.score == k then [x] else []) + WithScore(rest, k)
  {
    assert ([x] + rest)[1..] == rest;
  }

  /**
   * Inserting `p` puts it, among the players with its score, ahead of all
   * the others: it passes only players with a higher score.
   */
  lemma {:induction false} InsertWithScore(p: Player, ps: seq<Player>, k: int)
    ensures WithScore(Insert(p, ps), k) == (if p.score == k then [p] else []) + WithScore(ps, k)
    decreases |ps|
  {
    if |ps| == 0 || ps[0].score <= p.score {
      WithScoreCons(p, ps, k);
    } else {
      var x, rest := ps[0], ps[1..];
      var inserted := Insert(p, rest);
      assert Insert(p, ps) == [x] + inserted;
      InsertWithScore(p, rest, k);
      WithScoreCons(x, inserted, k);
      assert ps == [x] + rest;
      WithScoreCons(x, rest, k);
      // x scores more than p, so at most one of the two is counted
      if x.score == k {
        assert WithScore(Insert(p, ps), k) == [x] + WithScore(rest, k);
      } else {
        assert WithScore(ps, k) == WithScore(rest, k);
      }
    }
  }

  /** Sorting keeps, among players with equal scores, their order in the list. */
  lemma {:induction false} SortIsStable(ps: seq<Player>, k: int)
    ensures WithScore(GetSortedPlayers(ps), k) == WithScore(ps, k)
    decreases |ps|
  {
    if |ps| > 0 {
      SortIsStable(ps[1..], k);
      InsertWithScore(ps[0], GetSortedPlayers(ps[1..]), k);
    }
  }
}

=== FILE: wing_bird.dfy ===
/**
 * The bird of the single-player game: an uncapped fall under its own gravity,
 * held still until the first flap and while paused, and a wing that swings
 * back and forth on every frame whatever the game state.
 */
module WingBird {
  import opened Reals

  const WingSpeed: real := 0.15
  /** π/6 written out; no claim is made about floating-point rounding. */
  const MaxWingAngle: real := 0.5235987755982988

  datatype Bird = Bird(
    x: real, y: real, width: real, height: real,
    gravity: real, jumpForce: real, isPaused: bool,
    velocity: real, hasStarted: bool,
    wingAngle: real, wingDirection: int)

  /** A fresh component: the input defaults and the private field initialisers. */
  const Initial: Bird := Bird(0.0, 0.0, 34.0, 24.0, 0.15, -4.0, false, 0.0, false, 0.0, 1)

  /** The result of `performJump`: the bird, and whether `gameStart` was emitted. */
  datatype Jumped = Jumped(bird: Bird, gameStart: bool)

  /**
   * One frame. The wing always advances and turns back once it is past the
   * limit; height and velocity change only when not paused and started.
   */
  function Update(b: Bird): (r: Bird)
    ensures r.wingAngle == b.wingAngle + WingSpeed * (b.wingDirection as real)
    ensures b.wingDirection != 0 ==> (r.wingDirection != b.wingDirection <==> Abs(r.wingAngle) > MaxWingAngle)
    ensures r.wingDirection == b.wingDirection || r.wingDirection == -b.wingDirection
    ensures (r.y != b.y || r.velocity != b.velocity) ==> !b.isPaused && b.hasStarted
    ensures !b.isPaused && b.hasStarted ==> r.velocity == b.velocity + b.gravity && r.y == b.y + r.velocity
    ensures r.(y := b.y, velocity := b.velocity, wingAngle := b.wingAngle, wingDirection := b.wingDirection) == b
  {
    var angle := b.wingAngle + WingSpeed * (b.wingDirection as real);
    var direction := if Abs(angle) > MaxWingAngle then -b.wingDirection else b.wingDirection;
    var winged := b.(wingAngle := angle, wingDirection := direction);
    if !b.isPaused && b.hasStarted then
      var v := b.velocity + b.gravity;
      winged.(velocity := v, y := b.y + v)
    else
      winged
  }

  /** A flap: the velocity becomes the jump force, and the first flap starts the game. */
  function PerformJump(b: Bird): (r: Jumped)
    ensures r.gameStart <==> !b.hasStarted
    ensures r.bird.hasStarted && r.bird.velocity == b.jumpForce
    ensures r.bird.(hasStarted := b.hasStarted, velocity := b.velocity) == b
  {
    Jumped(b.(hasStarted := true, velocity := b.jumpForce), !b.hasStarted)
  }

  /** Back to rest with the wing level; position, size and physics inputs are kept. */
  function Reset(b: Bird): (r: Bird)
    ensures !r.hasStarted && r.velocity == 0.0 && r.wingAngle == 0.0 && r.wingDirection == 1
    ensures r.x == b.x && r.y == b.y && r.width == b.width && r.height == b.height
    ensures r.gravity == b.gravity && r.jumpForce == b.jumpForce && r.isPaused == b.isPaused
  {
    b.(velocity := 0.0, hasStarted := false, wingAngle := 0.0, wingDirection := 1)
  }

  function UpdateN(b: Bird, n: nat): Bird {
    if n == 0 then b else Update(UpdateN(b, n - 1))
  }

  // ---------------------------------------------------------------------------
  // Properties

  /**
   * The wing's reachable states: the direction is a unit, the angle overshoots
   * the limit by at most one step, and past the limit the wing is already
   * swinging back.
   */
  ghost predicate WingInv(b: Bird) {
    && (b.wingDirection == 1 || b.wingDirection == -1)
    && -MaxWingAngle - WingSpeed <= b.wingAngle <= MaxWingAngle + WingSpeed
    && (b.wingAngle > MaxWingAngle ==> b.wingDirection == -1)
    && (b.wingAngle < -MaxWingAngle ==> b.wingDirection == 1)
  }

  /** Every frame keeps the wing within its swing. */
  lemma UpdateKeepsWingInv(b: Bird)
    requires WingInv(b)
    ensures WingInv(Update(b))
  {
    var r := Update(b);
    if b.wingDirection == 1 {
      assert r.wingAngle == b.wingAngle + WingSpeed;
    } else {
      assert r.wingAngle == b.wingAngle - WingSpeed;
    }
  }

  /** The wing stays within its swing over any number of frames from a reset. */
  lemma {:induction false} WingStaysInSwing(b: Bird, n: nat)
    ensures WingInv(UpdateN(Reset(b), n))
  {
    if n > 0 {
      WingStaysInSwing(b, n - 1);
      UpdateKeepsWingInv(UpdateN(Reset(b), n - 1));
    }
  }

  /** Only the first flap emits `gameStart`; a second one emits nothing. */
  lemma SecondJumpIsSilent(b: Bird)
    ensures !PerformJump(PerformJump(b).bird).gameStart
    ensures PerformJump(PerformJump(b).bird).bird == PerformJump(b).bird
  {
  }

  /** After a reset the bird hangs where it is, however many frames pass, until the next flap. */
  lemma {:induction false} ResetFreezesHeight(b: Bird, n: nat)
    ensures UpdateN(Reset(b), n).y == b.y
    ensures UpdateN(Reset(b), n).velocity == 0.0
    ensures !UpdateN(Reset(b), n).hasStarted
  {
    if n > 0 {
      ResetFreezesHeight(b, n - 1);
    }
  }

  /** Once started and not paused, the bird falls with no cap on its velocity. */
  lemma {:induction false} FallIsUncapped(b: Bird, n: nat)
    requires !b.isPaused && b.hasStarted
    ensures UpdateN(b, n).velocity == b.velocity + (n as real) * b.gravity
    ensures UpdateN(b, n).hasStarted && !UpdateN(b, n).isPaused && UpdateN(b, n).gravity == b.gravity
  {
    if n > 0 {
      FallIsUncapped(b, n - 1);
      assert b.velocity + (n as real) * b.gravity == b.velocity + ((n - 1) as real) * b.gravity + b.gravity;
    }
  }
}

=== FILE: wrappers.dfy ===
/** Failure-carrying result types shared by the model. */
module Wrappers {

  /** A value that may be absent: a missing map entry, an unset stored score. */
  datatype Option<+T> = None | Some(value: T)

  /** Either a value or the fault that stopped the computation. */
  datatype Result<+T, +E> = Ok(value: T) | Err(error: E)
}
